=== FILE: README.md ===
# ViralPulse Pro: a verified model of its deterministic rules

ViralPulse Pro is a social-media analytics dashboard. Almost everything it
shows comes from random-number generators and static literals. Underneath
the rendering sit a few deterministic rules, and this project models them in
Dafny and proves what they guarantee:

- **Conflict detector** (`conflict_detector.dfy`, module `ConflictDetector`).
  It covers the pro/con split and its score bands, and the historical
  parallels: score each event, keep those above 60, sort by similarity
  (stable, descending) and keep three. It also covers the nested threshold
  indicators, the outlook bands and the real-time conflict scan.
- **Alert panel** (`alert_system.dfy`, module `AlertSystem`). The component
  is a class `AlertPanel` whose alert list and form the handlers replace.
  The pure updaters (create with validation, toggle by id, delete by id,
  add or remove a notification method) are functions. They come with the
  two counters, "Active Alerts" and "Total Triggered".
- **Mock-data generator** (`mock_data.dfy`, module `MockData`). It covers
  trending topics sorted by views, the fixed heat-map table, the meme
  timeline that is empty or seven days long, and the cycling of sample posts.
- **RAG engine** (`rag_engine.dfy`, module `RagEngine`). It covers the chunk
  database of three suffixed variants per base chunk, and retrieval as
  prefix, then drawn relevance, then sort. Retrieval never reads the query.
  It also covers the ordered, case-insensitive cultural-context lookup and
  when `analyze_trend` attaches a meme timeline.
- **Trend store** (`trend_context.dfy`, module `TrendContext`). The provider
  is a class `TrendProvider` with the stored trends, the selected trend and
  the platform choice. It exposes the order-preserving platform filter, and
  the periodic update step that touches only volume, controversy and growth.

Shared definitions are in three modules:

- `Common` (`common.dfy`): integer helpers, Python's `int()` on a float, an
  option type and the meme-day record.
- `Lists` (`lists.dfy`): `filter`, Python's stable `sort(key, reverse=True)`
  as a stable insertion sort, the slice `s[:k]` including a negative `k`, and
  the subsequence relation.
- `Text` (`text.dfy`): ASCII `str.lower()` and the substring test `sub in s`.

Every random draw (`random.randint`, `random.uniform`, `random.choice`,
`random.sample`, `random.random`, `Math.random`) is a parameter. The range
the generator guarantees for it is a precondition. Wall-clock times
(`datetime.now()`, `Date.now()`) become "hours ago", "days ago" or "minutes
ago" offsets, or an `id` parameter.

## Model

| member | source | states |
|---|---|---|
| ConflictDetector.AnalyzeConflict | project/src/conflict_detector.py:76-119 | The score is in [45,95] and the two percentages sum to 100. The pro share lies in the band its score selects: [35,65] above 80, [40,60] above 60, [60,80] otherwise. The pro share is the draw of the branch the score selects, and the con share is 100 minus it. Each side gets the two distinct quotes its draw picks from its pool, in the order drawn. The parallels, indicators and prediction are those of the score. The collecting loop builds exactly the filtered, scored event list. |
| ConflictDetector.TopParallelsSound | project/src/conflict_detector.py:97-116 | Every returned parallel is a historical event carrying `max(0, 100 - abs(level - score))` as similarity, and that similarity is above 60. There are at most three, in non-increasing similarity. |
| ConflictDetector.TopParallelsComplete | project/src/conflict_detector.py:97-116 | A qualifying event is either returned, or three returned parallels are at least as similar, so no event is dropped for a less similar one. |
| ConflictDetector.TopParallelsAtEighty | project/src/conflict_detector.py:97-116 | At score 80 two pairs of events tie. The sort keeps list order within a tie, so the result is ClimateDebate, VaccineDebate, Brexit, and TechRegulation is cut. |
| ConflictDetector.GenerateKeyIndicators | project/src/conflict_detector.py:121-146 | The three independent threshold tests yield all three indicators above 80, the last two above 70, only Influencer Amplification above 60, and none otherwise. |
| ConflictDetector.KeyIndicatorsNested | project/src/conflict_detector.py:121-146 | A higher score's indicator list ends with the whole list of any lower score. |
| ConflictDetector.PredictionAgreesWithIndicators | project/src/conflict_detector.py:148-159 | An escalating outlook comes with High Polarization. The outlook is de-escalating exactly when Echo Chambers is absent, which is at score 70 or below. Confidence is High exactly when escalating. |
| ConflictDetector.ActiveConflicts | project/src/conflict_detector.py:174-185 | The collected conflicts are exactly the records of topics whose roll exceeds 0.7, and there are no more of them than topics. |
| ConflictDetector.ActiveConflictsExactly | project/src/conflict_detector.py:174-185 | With distinct topics, a topic's record is collected if and only if its roll exceeds 0.7. |
| ConflictDetector.ActiveConflictsInRange | project/src/conflict_detector.py:174-185 | Every collected record names one of the scanned topics and has a level in [60,95]. |
| ConflictDetector.DetectRealTimeConflicts | project/src/conflict_detector.py:168-187 | The result is the active conflicts, sorted by level (non-increasing), at most five of them. Each has a monitored topic and a level in [60,95]. A topic appears if and only if its roll exceeds 0.7. |
| AlertSystem.Created | project/src/components/AlertSystem.tsx:117-131 | Without a name or a hashtag the list is unchanged. Otherwise it gains exactly one alert at the end: active, never triggered, condition `hashtag + " " + type`, the form's other fields. Earlier alerts are unchanged. |
| AlertSystem.Toggled | project/src/components/AlertSystem.tsx:136-140 | Length and order are kept. `active` flips exactly on the alerts whose id matches, and every other field is kept. |
| AlertSystem.ToggleTwice | project/src/components/AlertSystem.tsx:136-140 | Toggling the same id twice restores the list. |
| AlertSystem.DeletedExactly | project/src/components/AlertSystem.tsx:142-144 | Every surviving alert has another id, every alert with another id survives, and the survivors form a subsequence of the list. Kept and removed alerts together number the original length. |
| AlertSystem.DeleteAbsentOrTwice | project/src/components/AlertSystem.tsx:142-144 | Deleting an id nobody carries changes nothing, and deleting twice equals deleting once. |
| AlertSystem.MethodCheckboxes | project/src/components/AlertSystem.tsx:274-279 | Unchecking removes every occurrence of the method and keeps every other method. Checking appends it at the end. Unchecking right after checking an absent method undoes the check. |
| AlertSystem.TotalTriggeredAppend | project/src/components/AlertSystem.tsx:178 | The trigger total of a concatenation is the sum of the totals. |
| AlertSystem.CreateCounters | project/src/components/AlertSystem.tsx:174-178 | A successful create raises the active count by one and leaves the trigger total alone. |
| AlertSystem.ToggleCounters | project/src/components/AlertSystem.tsx:174-178 | A toggle keeps the trigger total. The active count moves by the matching alerts minus twice the matching active ones. |
| AlertSystem.DeleteCounters | project/src/components/AlertSystem.tsx:174-178 | Each counter is split exactly between the kept alerts and the removed ones. |
| AlertSystem.AlertPanel.constructor | project/src/components/AlertSystem.tsx:25-89 | The panel starts with the three initial alerts, the default form (empty name and hashtag, controversy, 80, email) and the form closed. |
| AlertSystem.AlertPanel.CreateAlert | project/src/components/AlertSystem.tsx:117-134 | The list becomes `Created` of the old list and form. An invalid form leaves everything unchanged. A valid one resets the form to its defaults and closes it, and raises the panel's Active Alerts figure by one. The Total Triggered figure never changes. |
| AlertSystem.AlertPanel.ToggleAlert | project/src/components/AlertSystem.tsx:136-140 | The list becomes `Toggled`, and the form and its visibility are unchanged. The panel's Total Triggered figure is kept. Active Alerts moves by the matching alerts minus twice the matching active ones. |
| AlertSystem.AlertPanel.DeleteAlert | project/src/components/AlertSystem.tsx:142-144 | The list becomes `Deleted`, and the form and its visibility are unchanged. The panel's two figures drop by exactly the removed alerts' share. |
| AlertSystem.AlertPanel.SetMethodChecked | project/src/components/AlertSystem.tsx:274-279 | Checking appends the method to the form's list and unchecking filters it out. Nothing else changes. |
| AlertSystem.AlertPanel.SetName | project/src/components/AlertSystem.tsx:217 | Only the form's name changes. |
| AlertSystem.AlertPanel.SetHashtag | project/src/components/AlertSystem.tsx:228 | Only the form's hashtag changes. |
| AlertSystem.AlertPanel.SetKind | project/src/components/AlertSystem.tsx:238 | Only the form's type changes. |
| AlertSystem.AlertPanel.SetValue | project/src/components/AlertSystem.tsx:255 | Only the form's value changes. |
| AlertSystem.AlertPanel.OpenCreateForm | project/src/components/AlertSystem.tsx:163 | The form becomes visible, and alerts and form contents are unchanged. |
| AlertSystem.AlertPanel.CloseCreateForm | project/src/components/AlertSystem.tsx:300 | The form is hidden, and alerts and form contents are unchanged. |
| MockData.GenerateTrendingTopics | project/src/mock_data.py:33-63 | There are `max(0, count)` trends. They are the generated records in stable non-increasing order of views. Each record's fields lie in their drawn ranges: topic and platform from their lists, views in [10000, 5000000], controversy in [20,95], spread in [15,85], toxicity at most controversy/100. |
| MockData.GeographicData | project/src/mock_data.py:65-80 | There are ten locations, in table order, with the table's city and coordinates. Each intensity lies in its own city's range, within [25,100] overall. |
| MockData.GenerateMemeEvolution | project/src/mock_data.py:111-130 | The timeline is empty exactly when the roll is below 0.3, and otherwise has seven consecutive days. Each day has popularity `max(0, int(raw)) >= 0`, a variant count in [5,50] and one of the three platforms. |
| MockData.BasePosts | project/src/mock_data.py:134-142 | There are always three base posts, and they are a topic's stored posts when it has some. |
| MockData.GenericPostsMentionTopic | project/src/mock_data.py:138-142 | Each generic post of a topic without stored posts contains `"#" + topic`. |
| MockData.GetSamplePosts | project/src/mock_data.py:132-149 | For `count >= 0` the result has exactly `count` posts, and post `i` is base post `i mod 3`. A negative count cuts from the end of the base list, as Python's slice does. |
| RagEngine.InitializeChunkDb | project/src/rag_engine.py:20-66 | There are 15 entries. Entry `k` is variant `k mod 3` of base chunk `k / 3`, with the base chunk's text, id `topic_<k mod 3>` and relevance in [0.6,0.95]. |
| RagEngine.RetrieveChunks | project/src/rag_engine.py:94-113 | The result is the records of the entries `db[:top_k]` keeps, whatever the query is, sorted by drawn relevance (non-increasing). For `top_k >= 0` there are `min(top_k, len(db))` of them. A negative `top_k` keeps `max(0, len(db) + top_k)` entries, as `PrefixSlice` states. Each copies text, source, id, cluster and timestamp from its entry. |
| RagEngine.ContextLookupFirstMatch | project/src/rag_engine.py:115-124 | The lookup returns the context of the earliest entry whose lower-cased name occurs in the lower-cased query, or the default when no entry matches. |
| RagEngine.UpperCaseQueryFindsTopic | project/src/rag_engine.py:119-121 | The lookup ignores case: the query "AIETHICS" finds the AIethics context. |
| RagEngine.LookupIgnoresCase | project/src/rag_engine.py:119-121 | Two queries with the same lower-cased form find the same context, for any list of contexts. |
| RagEngine.LookupIgnoresLetterCase | project/src/rag_engine.py:119-121 | Two queries that differ only in the case of their letters find the same cultural context. |
| RagEngine.GetCulturalContext | project/src/rag_engine.py:115-124 | The search loop with its early return computes the first-match lookup. |
| RagEngine.GenerateMemeTimeline | project/src/rag_engine.py:141-158 | There are seven days, from seven days ago onward. Each has popularity `max(0, int(raw)) >= 0`, a variant count in [5,30] and one of the three platforms. |
| RagEngine.AnalyzeTrend | project/src/rag_engine.py:68-92 | The result carries the retrieved chunks and the first-match context. The toxicity alert is set exactly when its roll exceeds 0.7. A meme timeline is attached exactly when the lower-cased query contains "meme" or the roll exceeds 0.6, and it always has seven days. Day `i` is the record built from the `i`-th day draw, dated `7 - i` days ago. Processing time, confidence and source diversity are the drawn values, in [0.6,1.2], [0.8,0.95] and [0.7,0.9]. |
| TrendContext.FilteredExactly | project/src/context/TrendContext.tsx:62 | With "all" the exposed trends are the stored ones. Otherwise they are exactly the stored trends of that platform, in stored order, as a subsequence. |
| TrendContext.FilteredIdempotent | project/src/context/TrendContext.tsx:62 | Filtering the exposed trends again changes nothing. |
| TrendContext.MockTikTokTrends | project/src/context/TrendContext.tsx:33-40 | Among the initial trends only #DanceChallenge is on TikTok. |
| TrendContext.ClampPercent | project/src/context/TrendContext.tsx:54 | The clamp lands in [0,100] and leaves a value already inside it unchanged. |
| TrendContext.Updated | project/src/context/TrendContext.tsx:51-55 | One trend's step keeps id, hashtag, sentiment, platform and region. Volume moves by an integer in [-500,499], controversy ends in [0,100] (moving at most 2.5 from an in-range value), and growth moves by less than 1. |
| TrendContext.UpdateAll | project/src/context/TrendContext.tsx:51-56 | The step keeps length and order, and applies the per-trend guarantees position by position. |
| TrendContext.UpdateKeepsFilteredIds | project/src/context/TrendContext.tsx:51-62 | A step never changes which trends a platform choice exposes, nor their order. |
| TrendContext.TrendProvider.constructor | project/src/context/TrendContext.tsx:44-46 | The provider starts with all mock trends, the first one selected and platform "all". |
| TrendContext.TrendProvider.SetPlatform | project/src/context/TrendContext.tsx:46 | Only the platform choice changes. |
| TrendContext.TrendProvider.SetSelectedTrend | project/src/context/TrendContext.tsx:45 | Only the selection changes. |
| TrendContext.TrendProvider.Tick | project/src/context/TrendContext.tsx:50-56 | The trends become the updated list. The selection (a stale copy) and the platform are unchanged, and the exposed ids are kept. |
| Lists.SortDesc | project/src/conflict_detector.py:107 | Python's `sort(key, reverse=True)`: the result is a permutation of its input and is non-increasing by the key. |
| Lists.SortDescOrdered | project/src/conflict_detector.py:107 | Sorting a list that is already in non-increasing order leaves it unchanged. |
| Lists.SortDescTiedPairs | project/src/conflict_detector.py:107 | When two tied pairs are interleaved with the lower pair outermost, the higher pair moves to the front and each pair keeps its list order. |
| Lists.SortDescStable | project/src/conflict_detector.py:107 | The sort is stable: the elements with any one key keep their relative order. |
| Lists.PrefixSlice | project/src/conflict_detector.py:116 | `s[:k]` is a prefix of `s`, of length `min(k, len(s))`, or `max(0, len(s) + k)` for a negative `k`. |
| Lists.TopOfSortedIsBest | project/src/conflict_detector.py:116 | Cutting a sorted list to `n` keeps an element, or keeps `n` elements at least as large. |
| Lists.FilterMembers | project/src/context/TrendContext.tsx:62 | `filter` keeps exactly the elements satisfying the predicate. |
| Lists.FilterIsSubsequence | project/src/context/TrendContext.tsx:62 | `filter` preserves order: its result is a subsequence of its input. |
| Lists.FilterIdempotent | project/src/components/AlertSystem.tsx:143 | Filtering twice by the same predicate equals filtering once. |
| Common.Popularity | project/src/mock_data.py:125 | `max(0, int(raw))` is non-negative, is the integer part of a non-negative raw value, and is 0 below 1. |
| Common.PyInt | project/src/rag_engine.py:153 | Python's `int()` on a float truncates toward zero on both signs. |
| Text.Lower | project/src/rag_engine.py:120 | Lower-casing keeps the length and leaves no upper-case ASCII letter. Each capital becomes the small letter at the same place in the alphabet, and every other character is kept. |
| Text.LowerSameIgnoringCase | project/src/rag_engine.py:120 | Two strings that differ only in the case of ASCII letters lower-case to the same string. |
| Text.ContainsInfix | project/src/mock_data.py:139-141 | A string built around a fragment contains that fragment. |

## Left out

- Rendering, in every component and page, is not modelled. Timers and scheduling are not modelled either: `Tick` is one firing of the interval.
- The random-number generator itself is not modelled. Each draw is an input whose range is a precondition.
- Floating-point numerics are left out: the sine factor in both meme timelines (the raw popularity is an input real), the sentiment timeline and normalisation, and the performance and pipeline figures. These are `generate_sentiment_timeline`, `_analyze_sentiment`, `get_performance_metrics` and `simulate_processing_pipeline`.
- TrendContext.Updated: JavaScript numbers are modelled as exact reals, and double rounding is not modelled. The growth and controversy bounds hold only up to rounding. For example, growth 12.5 with `Math.random()` equal to 1 - 2^-53 rounds to exactly 13.5, a step of 1, where the model's step stays below 1.
- Dates and their string formatting are left out: `strftime`, the "<n> hours" and "<n>%" prediction strings, and `Date.now().toString()`. The model keeps day, hour or minute offsets and integer values.
- RagEngine.RetrieveChunks: the default arguments of `chunk.get` for `chunk_id` and `semantic_cluster` call `random.randint` on every entry, because Python evaluates an argument before the call. Their values are never used, since every database entry has both keys, so the model neither takes these draws as inputs nor uses their values.
- Text.Lower: lower-cases ASCII letters only; Python's Unicode case mapping is not modelled. The lowered text is the user's query, which may hold any character. The lookups still agree with Python's. Every needle searched for in a lowered query is ASCII: the five topic names and "meme". No non-ASCII character lower-cases to a string that contributes to a needle match. The Kelvin sign U+212A lowers to 'k', which no needle contains. U+0130 lowers to 'i' plus U+0307, and no needle ends in 'i'.
- ConflictDetector.AnalyzeConflict: `random.sample` of two quotes is modelled as two distinct indices into the three-quote pool.
- ConflictDetector.AnalyzeConflict: the `pro_percentage` passed to the prediction is never read by it, so the model does not pass it.
- TrendContext.TrendProvider.SetPlatform: any of the four choices is accepted. The source's string union is the same set.
- AlertSystem.AlertPanel.SetValue: `Number(e.target.value)` on text that is not a number gives `NaN`, which the model's real-valued field cannot hold.
- AlertSystem.AlertPanel.SetKind: the select's value is taken as one of the four types, as the source's cast assumes.
- The `useTrend` provider check is framework wiring and is not modelled.

=== FILE: alert_system.dfy ===
/** The alert panel's state: the list of alert rules, the "create alert"
    form and whether it is open. The handlers replace the list through pure
    updaters (append, toggle-by-id, delete-by-id, add or remove a notification
    method), which are modelled as functions; the panel itself is a class
    whose methods apply them. */
module AlertSystem {
  import opened Lists

  datatype AlertType = Controversy | Volume | Sentiment | Growth

  /** The string value of an alert type, as it appears in a condition. */
  function TypeName(t: AlertType): string
  {
    match t
    case Controversy => "controversy"
    case Volume => "volume"
    case Sentiment => "sentiment"
    case Growth => "growth"
  }

  datatype NotifyMethod = Email | Sms | Push

  datatype Alert = Alert(
    id: string,
    name: string,
    condition: string,
    value: real,
    kind: AlertType,
    methods: seq<NotifyMethod>,
    active: bool,
    triggered: nat)

  /** The fields of the "create alert" form. */
  datatype AlertForm = AlertForm(name: string, hashtag: string, kind: AlertType, value: real, methods: seq<NotifyMethod>)

  const DefaultForm := AlertForm("", "", Controversy, 80.0, [Email])

  const InitialAlerts: seq<Alert> := [
    Alert("1", "AI Ethics High Controversy", "#AIethics controversy score", 80.0, Controversy, [Email, Sms], true, 3),
    Alert("2", "Crypto Volume Spike", "#CryptoRegulation volume", 100000.0, Volume, [Push], true, 1),
    Alert("3", "Climate Sentiment Drop", "#ClimateAction sentiment", -0.3, Sentiment, [Email], false, 0)
  ]

  // ---------------------------------------------------------------------
  // Creating an alert

  /** A form may be submitted only with a name and a hashtag. */
  predicate CanSubmit(form: AlertForm)
  {
    form.name != "" && form.hashtag != ""
  }

  /** The alert a submitted form becomes; `id` is the creation time. */
  function NewAlert(id: string, form: AlertForm): Alert
  {
    Alert(id, form.name, form.hashtag + " " + TypeName(form.kind), form.value, form.kind, form.methods, true, 0)
  }

  /** The list after a submit: one new alert at the end, or no change. */
  function Created(alerts: seq<Alert>, id: string, form: AlertForm): (r: seq<Alert>)
    ensures !CanSubmit(form) ==> r == alerts
    ensures CanSubmit(form) ==>
              && |r| == |alerts| + 1
              && r[..|alerts|] == alerts
              && r[|alerts|].id == id && r[|alerts|].name == form.name
              && r[|alerts|].condition == form.hashtag + " " + TypeName(form.kind)
              && r[|alerts|].value == form.value && r[|alerts|].kind == form.kind
              && r[|alerts|].methods == form.methods
              && r[|alerts|].active && r[|alerts|].triggered == 0
  {
    if CanSubmit(form) then alerts + [NewAlert(id, form)] else alerts
  }

  // ---------------------------------------------------------------------
  // Toggling and deleting by id

  function Flip(a: Alert, id: string): Alert
  {
    if a.id == id then a.(active := !a.active) else a
  }

  /** Flips `active` on every alert with the given id. */
  function Toggled(alerts: seq<Alert>, id: string): (r: seq<Alert>)
    ensures |r| == |alerts|
    ensures forall i :: 0 <= i < |r| ==>
              && r[i].id == alerts[i].id && r[i].name == alerts[i].name
              && r[i].condition == alerts[i].condition && r[i].value == alerts[i].value
              && r[i].kind == alerts[i].kind && r[i].methods == alerts[i].methods
              && r[i].triggered == alerts[i].triggered
              && (r[i].active <==> (alerts[i].active != (alerts[i].id == id)))
  {
    seq(|alerts|, i requires 0 <= i < |alerts| => Flip(alerts[i], id))
  }

  /** Toggling the same id twice restores the list. */
  lemma ToggleTwice(alerts: seq<Alert>, id: string)
    ensures Toggled(Toggled(alerts, id), id) == alerts
  {
  }

  function HasId(id: string): Alert -> bool { (a: Alert) => a.id == id }

  function OtherId(id: string): Alert -> bool { (a: Alert) => a.id != id }

  /** Removes every alert with the given id, keeping the rest in order. */
  function Deleted(alerts: seq<Alert>, id: string): seq<Alert>
  {
    Filter(alerts, OtherId(id))
  }

  /** What survives a delete: exactly the alerts with another id, as a
      subsequence of the original list. */
  lemma DeletedExactly(alerts: seq<Alert>, id: string)
    ensures forall i :: 0 <= i < |Deleted(alerts, id)| ==> Deleted(alerts, id)[i].id != id
    ensures forall i :: 0 <= i < |alerts| && alerts[i].id != id ==> alerts[i] in Deleted(alerts, id)
    ensures forall a :: a in Deleted(alerts, id) ==> a in alerts
    ensures IsSubsequence(Deleted(alerts, id), alerts)
    ensures |Deleted(alerts, id)| + |Filter(alerts, HasId(id))| == |alerts|
  {
    FilterMembers(alerts, OtherId(id));
    FilterIsSubsequence(alerts, OtherId(id));
    FilterPartition(alerts, id);
  }

  lemma {:induction false} FilterPartition(alerts: seq<Alert>, id: string)
    ensures |Filter(alerts, OtherId(id))| + |Filter(alerts, HasId(id))| == |alerts|
  {
    if alerts != [] {
      FilterPartition(alerts[1..], id);
    }
  }

  /** Deleting an id that no alert carries changes nothing, and deleting
      twice is deleting once. */
  lemma DeleteAbsentOrTwice(alerts: seq<Alert>, id: string)
    ensures (forall i :: 0 <= i < |alerts| ==> alerts[i].id != id) ==> Deleted(alerts, id) == alerts
    ensures Deleted(Deleted(alerts, id), id) == Deleted(alerts, id)
  {
    if forall i :: 0 <= i < |alerts| ==> alerts[i].id != id {
      FilterKeepsAll(alerts, OtherId(id));
    }
    FilterIdempotent(alerts, OtherId(id));
  }

  // ---------------------------------------------------------------------
  // The notification-method checkboxes

  function OtherMethod(m: NotifyMethod): NotifyMethod -> bool { (x: NotifyMethod) => x != m }

  /** Checking a box appends its method. */
  function WithMethod(methods: seq<NotifyMethod>, m: NotifyMethod): seq<NotifyMethod>
  {
    methods + [m]
  }

  /** Unchecking a box removes every occurrence of its method. */
  function WithoutMethod(methods: seq<NotifyMethod>, m: NotifyMethod): seq<NotifyMethod>
  {
    Filter(methods, OtherMethod(m))
  }

  /** Unchecking leaves no occurrence of the method and keeps every other
      method; unchecking right after checking undoes the check. */
  lemma MethodCheckboxes(methods: seq<NotifyMethod>, m: NotifyMethod)
    ensures m !in WithoutMethod(methods, m)
    ensures forall x :: x != m ==> (x in WithoutMethod(methods, m) <==> x in methods)
    ensures m in WithMethod(methods, m) && WithMethod(methods, m)[..|methods|] == methods
    ensures m !in methods ==> WithoutMethod(WithMethod(methods, m), m) == methods
  {
    FilterMembers(methods, OtherMethod(m));
    FilterAppend(methods, [m], OtherMethod(m));
    assert Filter([m], OtherMethod(m)) == [];
    if m !in methods {
      FilterKeepsAll(methods, OtherMethod(m));
    }
  }

  // ---------------------------------------------------------------------
  // The two aggregate counters

  predicate IsActive(a: Alert) { a.active }

  /** "Active Alerts": the number of alerts with `active` set. */
  function ActiveCount(alerts: seq<Alert>): nat
  {
    |Filter(alerts, IsActive)|
  }

  /** "Total Triggered": the sum of the `triggered` counters. */
  function TotalTriggered(alerts: seq<Alert>): nat
  {
    if alerts == [] then 0 else alerts[0].triggered + TotalTriggered(alerts[1..])
  }

  lemma {:induction false} TotalTriggeredAppend(a: seq<Alert>, b: seq<Alert>)
    ensures TotalTriggered(a + b) == TotalTriggered(a) + TotalTriggered(b)
  {
    if a == [] {
      assert a + b == b;
    } else {
      assert (a + b)[1..] == a[1..] + b;
      TotalTriggeredAppend(a[1..], b);
    }
  }

  /** Creating an alert adds one active alert and no triggers. */
  lemma CreateCounters(alerts: seq<Alert>, id: string, form: AlertForm)
    requires CanSubmit(form)
    ensures ActiveCount(Created(alerts, id, form)) == ActiveCount(alerts) + 1
    ensures TotalTriggered(Created(alerts, id, form)) == TotalTriggered(alerts)
  {
    FilterAppend(alerts, [NewAlert(id, form)], IsActive);
    assert Filter([NewAlert(id, form)], IsActive) == [NewAlert(id, form)];
    TotalTriggeredAppend(alerts, [NewAlert(id, form)]);
  }

  /** Toggling leaves the trigger total alone and moves the active count by
      the matching alerts that flip: those that were inactive become active,
      those that were active stop. */
  lemma {:induction false} ToggleCounters(alerts: seq<Alert>, id: string)
    ensures TotalTriggered(Toggled(alerts, id)) == TotalTriggered(alerts)
    ensures ActiveCount(Toggled(alerts, id))
         == ActiveCount(alerts) + |Filter(alerts, HasId(id))| - 2 * ActiveCount(Filter(alerts, HasId(id)))
  {
    if alerts != [] {
      var rest := alerts[1..];
      ToggleCounters(rest, id);
      assert Toggled(alerts, id) == [Flip(alerts[0], id)] + Toggled(rest, id);
      assert Toggled(alerts, id)[1..] == Toggled(rest, id);
      var matching := Filter(alerts, HasId(id));
      if alerts[0].id == id {
        assert matching == [alerts[0]] + Filter(rest, HasId(id));
        assert matching[1..] == Filter(rest, HasId(id));
      } else {
        assert matching == Filter(rest, HasId(id));
      }
    }
  }

  /** Deleting splits the trigger total between the kept and removed alerts. */
  lemma {:induction false} DeleteCounters(alerts: seq<Alert>, id: string)
    ensures TotalTriggered(Deleted(alerts, id)) + TotalTriggered(Filter(alerts, HasId(id))) == TotalTriggered(alerts)
    ensures ActiveCount(Deleted(alerts, id)) + ActiveCount(Filter(alerts, HasId(id))) == ActiveCount(alerts)
  {
    if alerts != [] {
      var rest := alerts[1..];
      DeleteCounters(rest, id);
      var kept := Deleted(alerts, id);
      var gone := Filter(alerts, HasId(id));
      if alerts[0].id == id {
        assert kept == Deleted(rest, id);
        assert gone == [alerts[0]] + Filter(rest, HasId(id));
        assert gone[1..] == Filter(rest, HasId(id));
      } else {
        assert gone == Filter(rest, HasId(id));
        assert kept == [alerts[0]] + Deleted(rest, id);
        assert kept[1..] == Deleted(rest, id);
      }
    }
  }

  // ---------------------------------------------------------------------
  // The component

  class AlertPanel {
    var alerts: seq<Alert>
    var form: AlertForm
    var showCreateForm: bool

    constructor ()
      ensures alerts == InitialAlerts && form == DefaultForm && !showCreateForm
    {
      alerts := InitialAlerts;
      form := DefaultForm;
      showCreateForm := false;
    }

    /** The "Active Alerts" figure. */
    function ActiveAlerts(): nat
      reads this
    {
      ActiveCount(alerts)
    }

    /** The "Total Triggered" figure. */
    function TriggeredTotal(): nat
      reads this
    {
      TotalTriggered(alerts)
    }

    method OpenCreateForm()
      modifies this
      ensures showCreateForm
      ensures alerts == old(alerts) && form == old(form)
    {
      showCreateForm := true;
    }

    method CloseCreateForm()
      modifies this
      ensures !showCreateForm
      ensures alerts == old(alerts) && form == old(form)
    {
      showCreateForm := false;
    }

    method SetName(name: string)
      modifies this
      ensures form == old(form).(name := name)
      ensures alerts == old(alerts) && showCreateForm == old(showCreateForm)
    {
      form := form.(name := name);
    }

    method SetHashtag(hashtag: string)
      modifies this
      ensures form == old(form).(hashtag := hashtag)
      ensures alerts == old(alerts) && showCreateForm == old(showCreateForm)
    {
      form := form.(hashtag := hashtag);
    }

    method SetKind(kind: AlertType)
      modifies this
      ensures form == old(form).(kind := kind)
      ensures alerts == old(alerts) && showCreateForm == old(showCreateForm)
    {
      form := form.(kind := kind);
    }

    method SetValue(value: real)
      modifies this
      ensures form == old(form).(value := value)
      ensures alerts == old(alerts) && showCreateForm == old(showCreateForm)
    {
      form := form.(value := value);
    }

    /** A checkbox change: checked appends the method, unchecked removes
        every occurrence of it. */
    method SetMethodChecked(m: NotifyMethod, checked: bool)
      modifies this
      ensures form == old(form).(methods := if checked then WithMethod(old(form.methods), m)
                                            else WithoutMethod(old(form.methods), m))
      ensures alerts == old(alerts) && showCreateForm == old(showCreateForm)
    {
      if checked {
        form := form.(methods := form.methods + [m]);
      } else {
        form := form.(methods := Filter(form.methods, OtherMethod(m)));
      }
    }

    /** `createAlert`; `id` is the creation timestamp. Without a name or a
        hashtag nothing changes; otherwise the alert is appended, the form
        is reset to its defaults and closed. */
    method CreateAlert(id: string)
      modifies this
      ensures alerts == Created(old(alerts), id, old(form))
      ensures !CanSubmit(old(form)) ==> form == old(form) && showCreateForm == old(showCreateForm)
      ensures CanSubmit(old(form)) ==> form == DefaultForm && !showCreateForm
      ensures CanSubmit(old(form)) ==> ActiveAlerts() == old(ActiveAlerts()) + 1
      ensures TriggeredTotal() == old(TriggeredTotal())
    {
      if CanSubmit(form) {
        CreateCounters(alerts, id, form);
      }
      if form.name == "" || form.hashtag == "" {
        return;
      }
      var alert := Alert(id, form.name, form.hashtag + " " + TypeName(form.kind), form.value, form.kind,
                         form.methods, true, 0);
      alerts := alerts + [alert];
      form := DefaultForm;
      showCreateForm := false;
    }

    method ToggleAlert(id: string)
      modifies this
      ensures alerts == Toggled(old(alerts), id)
      ensures form == old(form) && showCreateForm == old(showCreateForm)
      ensures TriggeredTotal() == old(TriggeredTotal())
      ensures ActiveAlerts()
           == old(ActiveAlerts()) + |Filter(old(alerts), HasId(id))| - 2 * ActiveCount(Filter(old(alerts), HasId(id)))
    {
      ToggleCounters(alerts, id);
      alerts := Toggled(alerts, id);
    }

    method DeleteAlert(id: string)
      modifies this
      ensures alerts == Deleted(old(alerts), id)
      ensures form == old(form) && showCreateForm == old(showCreateForm)
      ensures TriggeredTotal() + TotalTriggered(Filter(old(alerts), HasId(id))) == old(TriggeredTotal())
      ensures ActiveAlerts() + ActiveCount(Filter(old(alerts), HasId(id))) == old(ActiveAlerts())
    {
      DeleteCounters(alerts, id);
      alerts := Deleted(alerts, id);
    }
  }
}

=== FILE: common.dfy ===
/** Small definitions shared by the modules of the model: integer helpers,
    Python's `int()` on a float, an option type, and the per-day record that
    both meme-timeline generators produce. */
module Common {

  datatype Option<T> = None | Some(value: T)

  function Max(a: int, b: int): int { if a < b then b else a }

  function Min(a: int, b: int): int { if a < b then a else b }

  function Abs(x: int): nat { if x < 0 then -x else x }

  /** Python's `int(x)` on a float: truncation toward zero. */
  function PyInt(x: real): (n: int)
    ensures 0.0 <= x ==> n as real <= x < n as real + 1.0
    ensures x < 0.0 ==> n as real - 1.0 < x <= n as real
  {
    if 0.0 <= x then x.Floor else -((-x).Floor)
  }

  /** `max(0, int(raw))`, the popularity both meme timelines store. */
  function Popularity(raw: real): (p: int)
    ensures 0 <= p
    ensures 0.0 <= raw ==> p as real <= raw < p as real + 1.0
    ensures raw < 1.0 ==> p == 0
  {
    Max(0, PyInt(raw))
  }

  /** The platforms a meme day may be dominated by, in `random.choice` order. */
  const MemePlatforms: seq<string> := ["TikTok", "Twitter", "Reddit"]

  /** One day of a meme timeline; `daysAgo` replaces the wall-clock date. */
  datatype MemeDay = MemeDay(daysAgo: int, popularity: int, variantCount: int, platformDominance: string)

  /** The draws one day of a meme timeline consumes: the popularity before
      clamping (its sine-shaped part is computed outside the model), the
      variant count and the dominating platform. */
  datatype MemeDayDraw = MemeDayDraw(rawPopularity: real, variantCount: int, platform: string)

  function MemeDayFrom(daysAgo: int, d: MemeDayDraw): MemeDay
  {
    MemeDay(daysAgo, Popularity(d.rawPopularity), d.variantCount, d.platform)
  }
}

=== FILE: conflict_detector.dfy ===
/** The deterministic rules of the conflict detector: the pro/con split, the
    historical parallels (score, filter, stable sort, keep three), the
    threshold indicators, the outlook bands, and the real-time conflict scan.
    Every random draw is a parameter whose range the generator guarantees. */
module ConflictDetector {
  import opened Common
  import opened Lists

  datatype HistoricalEvent = HistoricalEvent(event: string, description: string, controversyLevel: int)

  /** A historical event together with its similarity to the current score. */
  datatype Parallel = Parallel(source: HistoricalEvent, similarity: int)

  datatype Indicator = Indicator(kind: string, description: string, severity: string)

  datatype Quote = Quote(text: string, author: string, credibility: int, influenceScore: real)

  /** The prediction record; the two numbers are shown as "<n> hours" and "<n>%". */
  datatype Prediction = Prediction(outlook: string, confidence: string, timelineHours: int, resolutionProbability: int)

  datatype Analysis = Analysis(
    topic: string,
    controversyScore: int,
    proPercentage: int,
    conPercentage: int,
    proQuotes: seq<Quote>,
    conQuotes: seq<Quote>,
    historicalParallels: seq<Parallel>,
    keyIndicators: seq<Indicator>,
    prediction: Prediction)

  const HistoricalEvents: seq<HistoricalEvent> := [
    HistoricalEvent("#Brexit Referendum 2016", "High polarization over EU membership, similar sentiment patterns", 89),
    HistoricalEvent("#ClimateDebate 2019", "Divided opinions on climate action urgency and methods", 76),
    HistoricalEvent("#VaccineDebate 2021", "Public health vs personal freedom narrative split", 84),
    HistoricalEvent("#TechRegulation 2023", "Innovation freedom vs consumer protection divide", 71)
  ]

  const ProQuotes: seq<Quote> := [
    Quote("This is exactly what we need for progress. The benefits far outweigh any risks.", "TechOptimist2024", 87, 0.75),
    Quote("Finally, someone making sense! This could revolutionize everything.", "FutureThinking", 92, 0.68),
    Quote("The data supports this approach. We should move forward carefully but decisively.", "DataDrivenDecisions", 95, 0.82)
  ]

  const ConQuotes: seq<Quote> := [
    Quote("This is moving too fast. We need to consider the long-term consequences.", "CautiousAnalyst", 89, 0.71),
    Quote("The risks are being completely ignored. This could backfire spectacularly.", "RiskAssessment", 84, 0.65),
    Quote("History shows us that rushing into these things never ends well.", "HistoryMatters", 78, 0.59)
  ]

  // ---------------------------------------------------------------------
  // The pro/con split

  /** Two distinct indices into a pool of three: `random.sample(pool, 2)`. */
  predicate IsSampleOfTwo(picks: (nat, nat))
  {
    picks.0 < 3 && picks.1 < 3 && picks.0 != picks.1
  }

  /** Everything `analyze_conflict` draws at random. The pro share has one
      draw per branch of the score test; the branch taken uses its own. */
  datatype AnalysisDraws = AnalysisDraws(
    score: int,
    proHigh: int,
    proMid: int,
    proLow: int,
    proPicks: (nat, nat),
    conPicks: (nat, nat),
    timelineHours: int,
    resolutionProbability: int)

  predicate ValidAnalysisDraws(d: AnalysisDraws)
  {
    && 45 <= d.score <= 95
    && 35 <= d.proHigh <= 65
    && 40 <= d.proMid <= 60
    && 60 <= d.proLow <= 80
    && IsSampleOfTwo(d.proPicks)
    && IsSampleOfTwo(d.conPicks)
    && 12 <= d.timelineHours <= 72
    && 20 <= d.resolutionProbability <= 80
  }

  // ---------------------------------------------------------------------
  // Historical parallels

  /** `max(0, 100 - abs(level - score))`. */
  function Similarity(level: int, score: int): int
  {
    Max(0, 100 - Abs(level - score))
  }

  function Score(e: HistoricalEvent, score: int): Parallel
  {
    Parallel(e, Similarity(e.controversyLevel, score))
  }

  /** Every event paired with its similarity, in list order. */
  function Scored(events: seq<HistoricalEvent>, score: int): (r: seq<Parallel>)
  {
    seq(|events|, i requires 0 <= i < |events| => Score(events[i], score))
  }

  predicate Qualifies(p: Parallel) { p.similarity > 60 }

  function BySimilarity(p: Parallel): real { p.similarity as real }

  /** The qualifying events, sorted by similarity (stable, descending),
      of which the first three are kept. */
  function TopParallels(score: int): seq<Parallel>
  {
    PrefixSlice(SortDesc(Filter(Scored(HistoricalEvents, score), Qualifies), BySimilarity), 3)
  }

  /** What a returned parallel is: a historical event with its similarity,
      above 60; at most three of them, in non-increasing similarity. */
  lemma TopParallelsSound(score: int)
    ensures |TopParallels(score)| <= 3
    ensures SortedDesc(TopParallels(score), BySimilarity)
    ensures forall i :: 0 <= i < |TopParallels(score)| ==>
              var p := TopParallels(score)[i];
              && p.source in HistoricalEvents
              && p.similarity == Similarity(p.source.controversyLevel, score)
              && p.similarity > 60
  {
    var scored := Scored(HistoricalEvents, score);
    var kept := Filter(scored, Qualifies);
    var sorted := SortDesc(kept, BySimilarity);
    var top := TopParallels(score);
    FilterMembers(scored, Qualifies);
    SortDescMembers(kept, BySimilarity);
    forall i | 0 <= i < |top|
      ensures top[i].source in HistoricalEvents
      ensures top[i].similarity == Similarity(top[i].source.controversyLevel, score)
      ensures top[i].similarity > 60
    {
      assert top[i] == sorted[i];
      assert top[i] in kept;
      var j :| 0 <= j < |kept| && kept[j] == top[i];
      assert kept[j] in scored;
    }
  }

  /** No qualifying event is dropped in favour of a less similar one: it is
      returned, or three returned parallels are at least as similar. */
  lemma TopParallelsComplete(score: int, e: HistoricalEvent)
    requires e in HistoricalEvents
    requires Similarity(e.controversyLevel, score) > 60
    ensures Score(e, score) in TopParallels(score)
         || (|TopParallels(score)| == 3
             && forall p :: p in TopParallels(score) ==> p.similarity >= Similarity(e.controversyLevel, score))
  {
    var scored := Scored(HistoricalEvents, score);
    var kept := Filter(scored, Qualifies);
    var sorted := SortDesc(kept, BySimilarity);
    var i :| 0 <= i < |HistoricalEvents| && HistoricalEvents[i] == e;
    assert scored[i] == Score(e, score);
    FilterMembers(scored, Qualifies);
    SortDescMembers(kept, BySimilarity);
    assert Score(e, score) in sorted;
    TopOfSortedIsBest(sorted, BySimilarity, 3, Score(e, score));
  }

  /** At score 80 all four events qualify, two pairs tie on similarity, and
      the stable sort keeps list order within each tie, so the cut to three
      drops the later of the two events at 91. */
  lemma TopParallelsAtEighty()
    ensures TopParallels(80)
         == [Score(HistoricalEvents[1], 80), Score(HistoricalEvents[2], 80), Score(HistoricalEvents[0], 80)]
  {
    var scored := Scored(HistoricalEvents, 80);
    assert scored == [Score(HistoricalEvents[0], 80), Score(HistoricalEvents[1], 80),
                      Score(HistoricalEvents[2], 80), Score(HistoricalEvents[3], 80)];
    FilterKeepsAll(scored, Qualifies);
    SortDescTiedPairs(scored, BySimilarity);
  }

  // ---------------------------------------------------------------------
  // Key indicators

  const HighPolarization := Indicator("High Polarization", "Extreme positions dominating discourse", "high")
  const EchoChambers := Indicator("Echo Chambers", "Limited cross-group interaction detected", "medium")
  const InfluencerAmplification := Indicator("Influencer Amplification", "Key figures driving narrative splits", "medium")

  /** The indicators by score band. */
  function KeyIndicators(score: int): seq<Indicator>
  {
    if score > 80 then [HighPolarization, EchoChambers, InfluencerAmplification]
    else if score > 70 then [EchoChambers, InfluencerAmplification]
    else if score > 60 then [InfluencerAmplification]
    else []
  }

  /** `_generate_key_indicators`: three independent threshold tests, each
      appending one indicator. */
  method GenerateKeyIndicators(score: int) returns (indicators: seq<Indicator>)
    ensures indicators == KeyIndicators(score)
  {
    indicators := [];
    if score > 80 {
      indicators := indicators + [HighPolarization];
    }
    if score > 70 {
      indicators := indicators + [EchoChambers];
    }
    if score > 60 {
      indicators := indicators + [InfluencerAmplification];
    }
  }

  /** The indicators are nested: a higher score keeps every indicator of a
      lower one, and adds its own in front. */
  lemma KeyIndicatorsNested(lower: int, higher: int)
    requires lower <= higher
    ensures |KeyIndicators(lower)| <= |KeyIndicators(higher)|
    ensures KeyIndicators(lower)
         == KeyIndicators(higher)[|KeyIndicators(higher)| - |KeyIndicators(lower)|..]
  {
  }

  // ---------------------------------------------------------------------
  // Prediction

  const EscalatingOutlook := "Escalating - Likely to intensify over next 48h"
  const StableOutlook := "Stable - Maintaining current polarization levels"
  const DeEscalatingOutlook := "De-escalating - Controversy likely to fade"

  /** `_generate_prediction`; its `pro_percentage` argument is never read. */
  function Predict(score: int, timelineHours: int, resolutionProbability: int): Prediction
  {
    if score > 85 then Prediction(EscalatingOutlook, "High", timelineHours, resolutionProbability)
    else if score > 70 then Prediction(StableOutlook, "Medium", timelineHours, resolutionProbability)
    else Prediction(DeEscalatingOutlook, "Medium", timelineHours, resolutionProbability)
  }

  /** The outlook agrees with the indicators: an escalating outlook comes
      with high polarization, a de-escalating one exactly when no echo
      chambers are reported, and confidence is high only when escalating. */
  lemma PredictionAgreesWithIndicators(score: int, hours: int, probability: int)
    ensures Predict(score, hours, probability).outlook == EscalatingOutlook ==> HighPolarization in KeyIndicators(score)
    ensures Predict(score, hours, probability).outlook == DeEscalatingOutlook <==> EchoChambers !in KeyIndicators(score)
    ensures Predict(score, hours, probability).confidence == "High" <==> Predict(score, hours, probability).outlook == EscalatingOutlook
  {
  }

  // ---------------------------------------------------------------------
  // analyze_conflict

  /** One more event scored: the filtered list grows by that event's
      parallel when it qualifies. */
  lemma ScoredPrefixStep(i: int, score: int)
    requires 0 <= i < |HistoricalEvents|
    ensures Filter(Scored(HistoricalEvents[..i + 1], score), Qualifies)
         == Filter(Scored(HistoricalEvents[..i], score), Qualifies)
            + (if Qualifies(Score(HistoricalEvents[i], score)) then [Score(HistoricalEvents[i], score)] else [])
  {
    var p := Score(HistoricalEvents[i], score);
    assert Scored(HistoricalEvents[..i + 1], score) == Scored(HistoricalEvents[..i], score) + [p];
    FilterAppend(Scored(HistoricalEvents[..i], score), [p], Qualifies);
    assert Filter([p], Qualifies) == (if Qualifies(p) then [p] else []);
  }

  /** The quotes of each pool are pairwise different. */
  lemma QuotesDistinct()
    ensures forall i, j :: 0 <= i < j < 3 ==> ProQuotes[i] != ProQuotes[j] && ConQuotes[i] != ConQuotes[j]
  {
    assert ProQuotes[0].author != ProQuotes[1].author && ProQuotes[1].author != ProQuotes[2].author;
    assert ProQuotes[0].author != ProQuotes[2].author;
    assert ConQuotes[0].author != ConQuotes[1].author && ConQuotes[1].author != ConQuotes[2].author;
    assert ConQuotes[0].author != ConQuotes[2].author;
  }

  method AnalyzeConflict(topic: string, d: AnalysisDraws) returns (a: Analysis)
    requires ValidAnalysisDraws(d)
    ensures a.topic == topic && a.controversyScore == d.score
    ensures 45 <= a.controversyScore <= 95
    ensures d.score > 80 ==> a.proPercentage == d.proHigh
    ensures 60 < d.score <= 80 ==> a.proPercentage == d.proMid
    ensures d.score <= 60 ==> a.proPercentage == d.proLow
    ensures a.conPercentage == 100 - a.proPercentage
    ensures a.proPercentage + a.conPercentage == 100
    ensures a.controversyScore > 80 ==> 35 <= a.proPercentage <= 65
    ensures 60 < a.controversyScore <= 80 ==> 40 <= a.proPercentage <= 60
    ensures a.controversyScore <= 60 ==> 60 <= a.proPercentage <= 80
    ensures |a.proQuotes| == 2 && a.proQuotes[0] in ProQuotes && a.proQuotes[1] in ProQuotes && a.proQuotes[0] != a.proQuotes[1]
    ensures |a.conQuotes| == 2 && a.conQuotes[0] in ConQuotes && a.conQuotes[1] in ConQuotes && a.conQuotes[0] != a.conQuotes[1]
    ensures a.proQuotes == [ProQuotes[d.proPicks.0], ProQuotes[d.proPicks.1]]
    ensures a.conQuotes == [ConQuotes[d.conPicks.0], ConQuotes[d.conPicks.1]]
    ensures a.historicalParallels == TopParallels(d.score)
    ensures a.keyIndicators == KeyIndicators(d.score)
    ensures a.prediction == Predict(d.score, d.timelineHours, d.resolutionProbability)
  {
    var score := d.score;
    var pro;
    if score > 80 {
      pro := d.proHigh;
    } else if score > 60 {
      pro := d.proMid;
    } else {
      pro := d.proLow;
    }
    var con := 100 - pro;
    var proQuotes := [ProQuotes[d.proPicks.0], ProQuotes[d.proPicks.1]];
    var conQuotes := [ConQuotes[d.conPicks.0], ConQuotes[d.conPicks.1]];
    QuotesDistinct();

    var similar: seq<Parallel> := [];
    for i := 0 to |HistoricalEvents|
      invariant similar == Filter(Scored(HistoricalEvents[..i], score), Qualifies)
    {
      var event := HistoricalEvents[i];
      var similarity := Similarity(event.controversyLevel, score);
      if similarity > 60 {
        similar := similar + [Parallel(event, similarity)];
      }
      ScoredPrefixStep(i, score);
    }
    assert HistoricalEvents[..|HistoricalEvents|] == HistoricalEvents;
    similar := SortDesc(similar, BySimilarity);

    var indicators := GenerateKeyIndicators(score);
    a := Analysis(topic, score, pro, con, proQuotes, conQuotes, PrefixSlice(similar, 3), indicators,
                  Predict(score, d.timelineHours, d.resolutionProbability));
  }

  // ---------------------------------------------------------------------
  // detect_real_time_conflicts

  const MonitoredTopics: seq<string> := ["AIethics", "ClimateAction", "TechDebate", "CryptoFuture", "HealthTech"]

  const TrendDirections: seq<string> := ["escalating", "stable", "de-escalating"]

  /** One active conflict; `detectedMinutesAgo` replaces the wall-clock time. */
  datatype Conflict = Conflict(
    topic: string,
    conflictLevel: int,
    trendDirection: string,
    estimatedParticipants: int,
    geographicSpread: int,
    detectedMinutesAgo: int)

  /** The draws for one monitored topic: `random.random()` deciding whether
      it is in conflict, then the values of its record. */
  datatype ConflictDraw = ConflictDraw(roll: real, level: int, direction: string, participants: int, spread: int, minutesAgo: int)

  predicate ValidConflictDraw(d: ConflictDraw)
  {
    && 0.0 <= d.roll < 1.0
    && 60 <= d.level <= 95
    && d.direction in TrendDirections
    && 1000 <= d.participants <= 100000
    && 5 <= d.spread <= 50
    && 5 <= d.minutesAgo <= 180
  }

  predicate IsActive(d: ConflictDraw) { d.roll > 0.7 }

  function ConflictFor(topic: string, d: ConflictDraw): Conflict
  {
    Conflict(topic, d.level, d.direction, d.participants, d.spread, d.minutesAgo)
  }

  /** The conflicts the loop collects from the first `|draws|` topics, in
      topic order. */
  function ActiveConflicts(topics: seq<string>, draws: seq<ConflictDraw>): (r: seq<Conflict>)
    requires |draws| == |topics|
    requires forall i :: 0 <= i < |draws| ==> ValidConflictDraw(draws[i])
    ensures |r| <= |topics|
    ensures forall c :: c in r <==>
              exists i :: 0 <= i < |topics| && IsActive(draws[i]) && c == ConflictFor(topics[i], draws[i])
    decreases |topics|
  {
    if topics == [] then []
    else
      var n := |topics| - 1;
      ActiveConflicts(topics[..n], draws[..n])
      + (if IsActive(draws[n]) then [ConflictFor(topics[n], draws[n])] else [])
  }

  function ByLevel(c: Conflict): real { c.conflictLevel as real }

  /** With distinct topics, a topic's conflict is collected exactly when
      its roll exceeds 0.7. */
  lemma ActiveConflictsExactly(topics: seq<string>, draws: seq<ConflictDraw>, i: int)
    requires |draws| == |topics|
    requires forall i :: 0 <= i < |draws| ==> ValidConflictDraw(draws[i])
    requires forall i, j :: 0 <= i < j < |topics| ==> topics[i] != topics[j]
    requires 0 <= i < |topics|
    ensures IsActive(draws[i]) <==> ConflictFor(topics[i], draws[i]) in ActiveConflicts(topics, draws)
  {
    if ConflictFor(topics[i], draws[i]) in ActiveConflicts(topics, draws) {
      var j :| 0 <= j < |topics| && IsActive(draws[j]) && ConflictFor(topics[i], draws[i]) == ConflictFor(topics[j], draws[j]);
      assert topics[i] == topics[j];
    }
  }

  /** One more topic scanned: its record is appended when it is active. */
  lemma ActiveConflictsPrefixStep(draws: seq<ConflictDraw>, i: int)
    requires |draws| == |MonitoredTopics|
    requires forall i :: 0 <= i < |draws| ==> ValidConflictDraw(draws[i])
    requires 0 <= i < |MonitoredTopics|
    ensures ActiveConflicts(MonitoredTopics[..i + 1], draws[..i + 1])
         == ActiveConflicts(MonitoredTopics[..i], draws[..i])
            + (if IsActive(draws[i]) then [ConflictFor(MonitoredTopics[i], draws[i])] else [])
  {
    assert MonitoredTopics[..i + 1][..i] == MonitoredTopics[..i];
    assert draws[..i + 1][..i] == draws[..i];
  }

  /** Every collected record names one of the topics and has a level in [60,95]. */
  lemma ActiveConflictsInRange(topics: seq<string>, draws: seq<ConflictDraw>)
    requires |draws| == |topics|
    requires forall i :: 0 <= i < |draws| ==> ValidConflictDraw(draws[i])
    ensures forall c :: c in ActiveConflicts(topics, draws) ==> c.topic in topics && 60 <= c.conflictLevel <= 95
  {
    forall c | c in ActiveConflicts(topics, draws) ensures c.topic in topics && 60 <= c.conflictLevel <= 95 {
      var i :| 0 <= i < |topics| && IsActive(draws[i]) && c == ConflictFor(topics[i], draws[i]);
    }
  }

  lemma MonitoredTopicsDistinct()
    ensures forall i, j :: 0 <= i < j < |MonitoredTopics| ==> MonitoredTopics[i] != MonitoredTopics[j]
  {
  }

  /** `detect_real_time_conflicts`: scan the monitored topics in order, then
      sort the active ones by level. */
  method DetectRealTimeConflicts(draws: seq<ConflictDraw>) returns (conflicts: seq<Conflict>)
    requires |draws| == |MonitoredTopics|
    requires forall i :: 0 <= i < |draws| ==> ValidConflictDraw(draws[i])
    ensures conflicts == SortDesc(ActiveConflicts(MonitoredTopics, draws), ByLevel)
    ensures SortedDesc(conflicts, ByLevel)
    ensures |conflicts| <= |MonitoredTopics|
    ensures forall c :: c in conflicts ==> c.topic in MonitoredTopics && 60 <= c.conflictLevel <= 95
    ensures forall i :: 0 <= i < |MonitoredTopics| ==>
              (IsActive(draws[i]) <==> ConflictFor(MonitoredTopics[i], draws[i]) in conflicts)
  {
    var active: seq<Conflict> := [];
    for i := 0 to |MonitoredTopics|
      invariant active == ActiveConflicts(MonitoredTopics[..i], draws[..i])
    {
      if draws[i].roll > 0.7 {
        active := active + [ConflictFor(MonitoredTopics[i], draws[i])];
      }
      ActiveConflictsPrefixStep(draws, i);
    }
    assert MonitoredTopics[..|MonitoredTopics|] == MonitoredTopics;
    assert draws[..|draws|] == draws;
    conflicts := SortDesc(active, ByLevel);
    SortDescMembers(active, ByLevel);
    ActiveConflictsInRange(MonitoredTopics, draws);
    MonitoredTopicsDistinct();
    forall i | 0 <= i < |MonitoredTopics|
      ensures IsActive(draws[i]) <==> ConflictFor(MonitoredTopics[i], draws[i]) in conflicts
    {
      ActiveConflictsExactly(MonitoredTopics, draws, i);
    }
  }
}

=== FILE: lists.dfy ===
/** The list operations the core leans on: JavaScript's `filter` (and the
    Python append loops that do the same), Python's stable
    `sort(key=..., reverse=True)` / `sorted(..., reverse=True)`, and Python's
    prefix slice `s[:k]`. */
module Lists {
  import opened Common

  /** The elements of `s` that satisfy `p`, in their original order. */
  function Filter<T>(s: seq<T>, p: T -> bool): (r: seq<T>)
    ensures |r| <= |s|
  {
    if s == [] then [] else (if p(s[0]) then [s[0]] else []) + Filter(s[1..], p)
  }

  /** Exactly the elements that satisfy `p` survive the filter. */
  lemma {:induction false} FilterMembers<T>(s: seq<T>, p: T -> bool)
    ensures forall i :: 0 <= i < |Filter(s, p)| ==> Filter(s, p)[i] in s && p(Filter(s, p)[i])
    ensures forall i :: 0 <= i < |s| && p(s[i]) ==> s[i] in Filter(s, p)
  {
    if s != [] {
      FilterMembers(s[1..], p);
      var r := Filter(s, p);
      var rest := Filter(s[1..], p);
      assert r == (if p(s[0]) then [s[0]] else []) + rest;
      forall i | 0 <= i < |s| && p(s[i]) ensures s[i] in r {
        if i > 0 { assert s[i] == s[1..][i - 1]; }
      }
    }
  }

  /** Filtering distributes over concatenation: it keeps relative order. */
  lemma {:induction false} FilterAppend<T>(a: seq<T>, b: seq<T>, p: T -> bool)
    ensures Filter(a + b, p) == Filter(a, p) + Filter(b, p)
  {
    if a == [] {
      assert a + b == b;
    } else {
      var h := if p(a[0]) then [a[0]] else [];
      assert (a + b)[0] == a[0];
      assert (a + b)[1..] == a[1..] + b;
      FilterAppend(a[1..], b, p);
      calc {
        Filter(a + b, p);
        h + Filter(a[1..] + b, p);
        h + (Filter(a[1..], p) + Filter(b, p));
        { assert h + (Filter(a[1..], p) + Filter(b, p)) == (h + Filter(a[1..], p)) + Filter(b, p); }
        (h + Filter(a[1..], p)) + Filter(b, p);
        Filter(a, p) + Filter(b, p);
      }
    }
  }

  lemma {:induction false} FilterIdempotent<T>(s: seq<T>, p: T -> bool)
    ensures Filter(Filter(s, p), p) == Filter(s, p)
  {
    if s != [] {
      FilterIdempotent(s[1..], p);
      var rest := Filter(s[1..], p);
      if p(s[0]) {
        assert Filter(s, p) == [s[0]] + rest;
        assert ([s[0]] + rest)[0] == s[0];
        assert ([s[0]] + rest)[1..] == rest;
      } else {
        assert Filter(s, p) == rest;
      }
    }
  }

  /** A filter that every element passes changes nothing. */
  lemma {:induction false} FilterKeepsAll<T>(s: seq<T>, p: T -> bool)
    requires forall i :: 0 <= i < |s| ==> p(s[i])
    ensures Filter(s, p) == s
  {
    if s != [] {
      FilterKeepsAll(s[1..], p);
      assert [s[0]] + s[1..] == s;
    }
  }

  /** A filter that rejects every element yields nothing. */
  lemma {:induction false} FilterNone<T>(s: seq<T>, p: T -> bool)
    requires forall i :: 0 <= i < |s| ==> !p(s[i])
    ensures Filter(s, p) == []
  {
    if s != [] {
      FilterNone(s[1..], p);
    }
  }

  /** `a` can be obtained from `b` by deleting elements. */
  predicate IsSubsequence<T(==)>(a: seq<T>, b: seq<T>)
    decreases |b|
  {
    if a == [] then true
    else if b == [] then false
    else if a[0] == b[0] then IsSubsequence(a[1..], b[1..])
    else IsSubsequence(a, b[1..])
  }

  lemma {:induction false} FilterIsSubsequence<T>(s: seq<T>, p: T -> bool)
    ensures IsSubsequence(Filter(s, p), s)
  {
    if s != [] {
      var rest := Filter(s[1..], p);
      FilterIsSubsequence(s[1..], p);
      if p(s[0]) {
        assert Filter(s, p) == [s[0]] + rest;
        assert ([s[0]] + rest)[1..] == rest;
      } else {
        assert Filter(s, p) == rest;
        if rest != [] {
          FilterMembers(s[1..], p);
          assert p(rest[0]);
          assert rest[0] != s[0];
        }
      }
    }
  }

  /** Non-increasing by `key`: what a `reverse=True` sort guarantees. */
  predicate SortedDesc<T>(s: seq<T>, key: T -> real)
  {
    forall i, j :: 0 <= i < j < |s| ==> key(s[i]) >= key(s[j])
  }

  /** Inserts `x` in front of the first element whose key does not exceed
      its own, so that `x` precedes the equal-key elements of `s`. */
  function InsertDesc<T>(x: T, s: seq<T>, key: T -> real): (r: seq<T>)
    ensures multiset(r) == multiset(s) + multiset{x}
  {
    if s == [] || key(s[0]) <= key(x) then [x] + s
    else
      assert s == [s[0]] + s[1..];
      [s[0]] + InsertDesc(x, s[1..], key)
  }

  lemma {:induction false} InsertDescBounded<T>(x: T, s: seq<T>, key: T -> real, bound: real)
    requires key(x) <= bound
    requires forall i :: 0 <= i < |s| ==> key(s[i]) <= bound
    ensures forall i :: 0 <= i < |InsertDesc(x, s, key)| ==> key(InsertDesc(x, s, key)[i]) <= bound
  {
    if s != [] && key(s[0]) > key(x) {
      InsertDescBounded(x, s[1..], key, bound);
    }
  }

  lemma {:induction false} InsertDescSorted<T>(x: T, s: seq<T>, key: T -> real)
    requires SortedDesc(s, key)
    ensures SortedDesc(InsertDesc(x, s, key), key)
  {
    if s != [] && key(s[0]) > key(x) {
      var tail := InsertDesc(x, s[1..], key);
      InsertDescSorted(x, s[1..], key);
      InsertDescBounded(x, s[1..], key, key(s[0]));
      var r := [s[0]] + tail;
      assert r == InsertDesc(x, s, key);
      forall i, j | 0 <= i < j < |r| ensures key(r[i]) >= key(r[j]) {
        assert r[j] == tail[j - 1];
        if 0 < i { assert r[i] == tail[i - 1]; }
      }
    }
  }

  /** Python's stable `sorted(s, key=key, reverse=True)`. */
  function SortDesc<T>(s: seq<T>, key: T -> real): (r: seq<T>)
    ensures |r| == |s|
    ensures multiset(r) == multiset(s)
    ensures SortedDesc(r, key)
  {
    if s == [] then []
    else
      assert s == [s[0]] + s[1..];
      var r := InsertDesc(s[0], SortDesc(s[1..], key), key);
      InsertDescSorted(s[0], SortDesc(s[1..], key), key);
      assert |r| == |multiset(r)|;
      r
  }

  /** One step of the sort: the head is inserted into the sorted tail. */
  lemma {:induction false} SortDescStep<T>(s: seq<T>, key: T -> real)
    requires s != []
    ensures SortDesc(s, key) == InsertDesc(s[0], SortDesc(s[1..], key), key)
  {
  }

  lemma {:induction false} InsertDescFront<T>(x: T, s: seq<T>, key: T -> real)
    requires s == [] || key(s[0]) <= key(x)
    ensures InsertDesc(x, s, key) == [x] + s
  {
  }

  lemma {:induction false} InsertDescPast<T>(x: T, s: seq<T>, key: T -> real)
    requires s != [] && key(s[0]) > key(x)
    ensures InsertDesc(x, s, key) == [s[0]] + InsertDesc(x, s[1..], key)
  {
  }

  /** A list that is already in order is left as it is. */
  lemma {:induction false} SortDescOrdered<T>(s: seq<T>, key: T -> real)
    requires SortedDesc(s, key)
    ensures SortDesc(s, key) == s
    decreases |s|
  {
    if s != [] {
      SortDescStep(s, key);
      SortDescOrdered(s[1..], key);
      InsertDescFront(s[0], s[1..], key);
      assert [s[0]] + s[1..] == s;
    }
  }

  lemma {:induction false} InsertDescPastTwo<T>(x: T, s: seq<T>, key: T -> real)
    requires |s| == 3 && key(x) == key(s[2]) < key(s[1]) <= key(s[0])
    ensures InsertDesc(x, s, key) == [s[0], s[1], x, s[2]]
  {
    InsertDescPast(x, s, key);
    InsertDescPast(x, s[1..], key);
    assert s[1..][1..] == [s[2]];
    InsertDescFront(x, [s[2]], key);
  }

  /** Two tied pairs, the lower pair first and last: the higher pair moves
      to the front and each pair keeps its own order. */
  lemma {:induction false} SortDescTiedPairs<T>(s: seq<T>, key: T -> real)
    requires |s| == 4 && key(s[0]) == key(s[3]) < key(s[1]) == key(s[2])
    ensures SortDesc(s, key) == [s[1], s[2], s[0], s[3]]
  {
    var t := s[1..];
    assert t[0] == s[1] && t[1] == s[2] && t[2] == s[3];
    assert SortedDesc(t, key) by {
      forall i, j | 0 <= i < j < |t| ensures key(t[i]) >= key(t[j]) {
      }
    }
    SortDescStep(s, key);
    SortDescOrdered(t, key);
    InsertDescPastTwo(s[0], t, key);
  }

  lemma SortDescMembers<T>(s: seq<T>, key: T -> real)
    ensures forall x :: x in SortDesc(s, key) <==> x in s
  {
    var r := SortDesc(s, key);
    forall x ensures x in r <==> x in s {
      assert x in r <==> x in multiset(r);
      assert x in s <==> x in multiset(s);
    }
  }

  function HasKey<T>(key: T -> real, k: real): T -> bool
  {
    x => key(x) == k
  }

  lemma {:induction false} InsertDescStable<T>(x: T, s: seq<T>, key: T -> real, k: real)
    requires SortedDesc(s, key)
    ensures Filter(InsertDesc(x, s, key), HasKey(key, k))
         == (if key(x) == k then [x] else []) + Filter(s, HasKey(key, k))
  {
    var p := HasKey(key, k);
    if s == [] || key(s[0]) <= key(x) {
      assert ([x] + s)[0] == x && ([x] + s)[1..] == s;
    } else {
      var tail := InsertDesc(x, s[1..], key);
      InsertDescStable(x, s[1..], key, k);
      assert ([s[0]] + tail)[0] == s[0] && ([s[0]] + tail)[1..] == tail;
      assert Filter(s, p) == (if p(s[0]) then [s[0]] else []) + Filter(s[1..], p);
    }
  }

  /** Stability: the elements sharing any one key value come out in the
      order they went in. */
  lemma {:induction false} SortDescStable<T>(s: seq<T>, key: T -> real, k: real)
    ensures Filter(SortDesc(s, key), HasKey(key, k)) == Filter(s, HasKey(key, k))
  {
    if s != [] {
      SortDescStable(s[1..], key, k);
      InsertDescStable(s[0], SortDesc(s[1..], key), key, k);
    }
  }

  /** Python's prefix slice `s[:k]`; a negative `k` drops `-k` elements
      from the end. */
  function PrefixSlice<T>(s: seq<T>, k: int): (r: seq<T>)
    ensures r <= s
    ensures |r| == (if 0 <= k then Min(k, |s|) else Max(0, |s| + k))
  {
    if 0 <= k then s[..Min(k, |s|)] else s[..Max(0, |s| + k)]
  }

  /** Keeping the first `n` elements of a list sorted by `key` drops no
      element in favour of one with a smaller key. */
  lemma TopOfSortedIsBest<T>(s: seq<T>, key: T -> real, n: nat, x: T)
    requires SortedDesc(s, key)
    requires x in s
    ensures x in PrefixSlice(s, n)
         || (|PrefixSlice(s, n)| == n && forall y :: y in PrefixSlice(s, n) ==> key(y) >= key(x))
  {
    var j :| 0 <= j < |s| && s[j] == x;
    if j >= n {
      forall y | y in PrefixSlice(s, n) ensures key(y) >= key(x) {
        var i :| 0 <= i < n && s[i] == y;
      }
    }
  }
}

=== FILE: mock_data.dfy ===
/** The list logic of the mock-data generator: trending topics sorted by
    views, the fixed geographic table, the meme-evolution timeline and the
    cycling of sample posts. Random draws are parameters; wall-clock times
    become "hours ago" / "days ago" offsets. */
module MockData {
  import opened Common
  import opened Lists
  import opened Text

  const Topics: seq<string> := [
    "AIethics", "ClimateAction", "TechDebate", "CryptoFuture", "SpaceExploration",
    "HealthTech", "RemoteWork", "Sustainability", "QuantumComputing", "Metaverse",
    "BlockchainGov", "FutureOfWork", "DigitalPrivacy", "GreenEnergy", "BioTech",
    "SmartCities", "RoboticsCare", "VirtualReality", "GenAI", "CyberSecurity"
  ]

  const Platforms: seq<string> := ["Twitter", "Reddit", "TikTok", "Instagram"]

  const SamplePosts: map<string, seq<string>> := map[
    "AIethics" := [
      "We need stronger AI governance before it's too late #AIethics",
      "AI bias in hiring is a real problem that needs addressing #AIethics",
      "The future of AI should be decided by everyone, not just tech companies #AIethics"
    ],
    "ClimateAction" := [
      "Individual action isn't enough, we need systemic change #ClimateAction",
      "Renewable energy is finally becoming cheaper than fossil fuels #ClimateAction",
      "Climate anxiety is real and affecting young people globally #ClimateAction"
    ]
  ]

  // ---------------------------------------------------------------------
  // generate_trending_topics

  datatype TrendRecord = TrendRecord(
    topic: string,
    platform: string,
    views: int,
    engagementRate: real,
    controversy: int,
    sentimentScore: real,
    growthRate: real,
    peakHoursAgo: int,
    geographicSpread: int,
    toxicityLevel: real)

  /** The draws of one loop iteration, in the order the generator makes them. */
  datatype TrendDraw = TrendDraw(
    topic: string,
    platform: string,
    views: int,
    controversy: int,
    sentiment: real,
    engagementRate: real,
    growthRate: real,
    peakHoursAgo: int,
    geographicSpread: int,
    toxicity: real)

  predicate ValidTrendDraw(d: TrendDraw)
  {
    && d.topic in Topics
    && d.platform in Platforms
    && 10000 <= d.views <= 5000000
    && 20 <= d.controversy <= 95
    && -1.0 <= d.sentiment <= 1.0
    && 2.5 <= d.engagementRate <= 15.0
    && -20.0 <= d.growthRate <= 300.0
    && 1 <= d.peakHoursAgo <= 48
    && 15 <= d.geographicSpread <= 85
    && 0.0 <= d.toxicity <= d.controversy as real / 100.0
  }

  function TrendFrom(d: TrendDraw): TrendRecord
  {
    TrendRecord(d.topic, d.platform, d.views, d.engagementRate, d.controversy, d.sentiment,
                d.growthRate, d.peakHoursAgo, d.geographicSpread, d.toxicity)
  }

  /** The trends in the order the loop appends them. */
  function TrendsFrom(draws: seq<TrendDraw>): seq<TrendRecord>
  {
    seq(|draws|, i requires 0 <= i < |draws| => TrendFrom(draws[i]))
  }

  function ByViews(t: TrendRecord): real { t.views as real }

  /** Every field of a generated trend lies in the range it is drawn from. */
  predicate InRanges(t: TrendRecord)
  {
    && t.topic in Topics
    && t.platform in Platforms
    && 10000 <= t.views <= 5000000
    && 20 <= t.controversy <= 95
    && 15 <= t.geographicSpread <= 85
    && 0.0 <= t.toxicityLevel <= t.controversy as real / 100.0
  }

  /** `generate_trending_topics(count)`: `range(count)` is empty for a
      negative count, so the result has `max(0, count)` trends. */
  method GenerateTrendingTopics(count: int, draws: seq<TrendDraw>) returns (trends: seq<TrendRecord>)
    requires |draws| == Max(0, count)
    requires forall i :: 0 <= i < |draws| ==> ValidTrendDraw(draws[i])
    ensures trends == SortDesc(TrendsFrom(draws), ByViews)
    ensures |trends| == Max(0, count)
    ensures SortedDesc(trends, ByViews)
    ensures forall i :: 0 <= i < |trends| ==> InRanges(trends[i])
  {
    trends := [];
    var i := 0;
    while i < count
      invariant 0 <= i <= |draws|
      invariant count >= 0 ==> i <= count
      invariant |trends| == i
      invariant forall j :: 0 <= j < i ==> trends[j] == TrendFrom(draws[j])
    {
      var d := draws[i];
      var trend := TrendRecord(d.topic, d.platform, d.views, d.engagementRate, d.controversy, d.sentiment,
                               d.growthRate, d.peakHoursAgo, d.geographicSpread, d.toxicity);
      trends := trends + [trend];
      i := i + 1;
    }
    assert trends == TrendsFrom(draws);
    trends := SortDesc(trends, ByViews);
    SortDescMembers(TrendsFrom(draws), ByViews);
    forall k | 0 <= k < |trends| ensures InRanges(trends[k]) {
      assert trends[k] in TrendsFrom(draws);
    }
  }

  // ---------------------------------------------------------------------
  // generate_geographic_data

  datatype Location = Location(city: string, lat: real, lng: real, intensity: int)

  /** A city of the heat map and the range its intensity is drawn from. */
  datatype City = City(name: string, lat: real, lng: real, low: int, high: int)

  const Cities: seq<City> := [
    City("New York", 40.7128, -74.0060, 50, 100),
    City("London", 51.5074, -0.1278, 40, 90),
    City("Tokyo", 35.6762, 139.6503, 60, 95),
    City("San Francisco", 37.7749, -122.4194, 70, 100),
    City("Berlin", 52.5200, 13.4050, 30, 80),
    City("Sydney", -33.8688, 151.2093, 45, 85),
    City("Toronto", 43.6532, -79.3832, 35, 75),
    City("Mumbai", 19.0760, 72.8777, 55, 90),
    City("S\U{e3}o Paulo", -23.5505, -46.6333, 40, 80),
    City("Dubai", 25.2048, 55.2708, 25, 70)
  ]

  /** `generate_geographic_data`: the ten cities in order, each with its
      drawn intensity. */
  function GeographicData(intensities: seq<int>): (locations: seq<Location>)
    requires |intensities| == |Cities|
    requires forall i :: 0 <= i < |Cities| ==> Cities[i].low <= intensities[i] <= Cities[i].high
    ensures |locations| == 10
    ensures forall i :: 0 <= i < 10 ==>
              && locations[i].city == Cities[i].name
              && locations[i].lat == Cities[i].lat && locations[i].lng == Cities[i].lng
              && Cities[i].low <= locations[i].intensity <= Cities[i].high
              && 25 <= locations[i].intensity <= 100
  {
    seq(|Cities|, i requires 0 <= i < |Cities| =>
      Location(Cities[i].name, Cities[i].lat, Cities[i].lng, intensities[i]))
  }

  // ---------------------------------------------------------------------
  // generate_meme_evolution

  predicate ValidMemeDayDraw(d: MemeDayDraw)
  {
    5 <= d.variantCount <= 50 && d.platform in MemePlatforms
  }

  /** `generate_meme_evolution`: with `roll` below 0.3 the topic never
      became a meme; otherwise seven consecutive days starting
      `startDaysAgo` days back. The topic argument is never read. */
  method GenerateMemeEvolution(topic: string, roll: real, startDaysAgo: int, days: seq<MemeDayDraw>)
    returns (timeline: seq<MemeDay>)
    requires 0.0 <= roll < 1.0
    requires 7 <= startDaysAgo <= 30
    requires |days| == 7
    requires forall i :: 0 <= i < 7 ==> ValidMemeDayDraw(days[i])
    ensures timeline == [] <==> roll < 0.3
    ensures timeline == [] || |timeline| == 7
    ensures forall i :: 0 <= i < |timeline| ==>
              && timeline[i].daysAgo == startDaysAgo - i
              && timeline[i].popularity == Popularity(days[i].rawPopularity)
              && 0 <= timeline[i].popularity
              && 5 <= timeline[i].variantCount <= 50
              && timeline[i].platformDominance in MemePlatforms
  {
    if roll < 0.3 {
      return [];
    }
    timeline := [];
    for i := 0 to 7
      invariant |timeline| == i
      invariant forall j :: 0 <= j < i ==> timeline[j] == MemeDayFrom(startDaysAgo - j, days[j])
    {
      var popularity := Max(0, PyInt(days[i].rawPopularity));
      timeline := timeline + [MemeDay(startDaysAgo - i, popularity, days[i].variantCount, days[i].platform)];
    }
  }

  // ---------------------------------------------------------------------
  // get_sample_posts

  /** The posts a topic's sample list is built from: its stored posts, or
      three generic posts that mention it. */
  function BasePosts(topic: string): (base: seq<string>)
    ensures |base| == 3
    ensures topic in SamplePosts ==> base == SamplePosts[topic]
  {
    if topic in SamplePosts then SamplePosts[topic]
    else [
      "Thoughts on #" + topic + "? This is getting interesting...",
      "The #" + topic + " discussion is heating up. Here's my take:",
      "Can we talk about #" + topic + " for a minute? This is important."
    ]
  }

  /** A post whose lead ends with `#` followed by the topic contains the
      topic's hashtag. */
  lemma {:induction false} HashtagPostMentions(lead: string, topic: string, tail: string)
    requires |lead| > 0 && lead[|lead| - 1] == '#'
    ensures Contains(lead + topic + tail, "#" + topic)
  {
    var pre := lead[..|lead| - 1];
    assert lead == pre + "#";
    assert lead + topic + tail == pre + ("#" + topic) + tail;
    ContainsInfix(pre, "#" + topic, tail);
  }

  /** A topic without stored posts gets generic posts that each contain
      its hashtag. */
  lemma GenericPostsMentionTopic(topic: string)
    requires topic !in SamplePosts
    ensures forall p :: p in BasePosts(topic) ==> Contains(p, "#" + topic)
  {
    var p0 := "Thoughts on #" + topic + "? This is getting interesting...";
    var p1 := "The #" + topic + " discussion is heating up. Here's my take:";
    var p2 := "Can we talk about #" + topic + " for a minute? This is important.";
    assert BasePosts(topic) == [p0, p1, p2];
    HashtagPostMentions("Thoughts on #", topic, "? This is getting interesting...");
    HashtagPostMentions("The #", topic, " discussion is heating up. Here's my take:");
    HashtagPostMentions("Can we talk about #", topic, " for a minute? This is important.");
  }

  /** `get_sample_posts(topic, count)`: the base list repeated until it
      has at least `count` posts, then cut to `posts[:count]`. For a
      negative count the cut counts from the end. */
  method GetSamplePosts(topic: string, count: int) returns (posts: seq<string>)
    ensures count >= 0 ==> |posts| == count
    ensures count >= 0 ==> forall i :: 0 <= i < count ==> posts[i] == BasePosts(topic)[i % 3]
    ensures count < 0 ==> posts == BasePosts(topic)[..Max(0, 3 + count)]
  {
    var base := BasePosts(topic);
    posts := base;
    while |posts| < count
      invariant |posts| >= 3 && |posts| % 3 == 0
      invariant forall i :: 0 <= i < |posts| ==> posts[i] == base[i % 3]
      invariant count <= 3 ==> posts == base
      decreases count - |posts|
    {
      CycleOnce(posts, base);
      posts := posts + base;
    }
    posts := PrefixSlice(posts, count);
  }

  /** Appending the base list once more keeps post `i` equal to base post
      `i mod 3`. */
  lemma CycleOnce(posts: seq<string>, base: seq<string>)
    requires |base| == 3 && |posts| % 3 == 0
    requires forall i :: 0 <= i < |posts| ==> posts[i] == base[i % 3]
    ensures forall i :: 0 <= i < |posts + base| ==> (posts + base)[i] == base[i % 3]
  {
    forall i | 0 <= i < |posts + base| ensures (posts + base)[i] == base[i % 3] {
      if |posts| <= i {
        var q := |posts| / 3;
        assert |posts| == 3 * q;
        assert i == 3 * q + (i - |posts|);
        assert i % 3 == i - |posts|;
      }
    }
  }
}

=== FILE: rag_engine.dfy ===
/** The deterministic parts of the RAG engine: the chunk database built
    from five base chunks, the retrieval step (which takes a prefix of the
    database and sorts it by a drawn relevance, ignoring the query), the
    cultural-context lookup, the meme timeline and the way `analyze_trend`
    composes them. */
module RagEngine {
  import opened Common
  import opened Lists
  import opened Text

  /** A base chunk; `hoursAgo` replaces its wall-clock timestamp. */
  datatype BaseChunk = BaseChunk(text: string, topic: string, source: string, hoursAgo: int)

  const SampleChunks: seq<BaseChunk> := [
    BaseChunk("AI ethics concerns are growing as machine learning systems become more prevalent in hiring, lending, and criminal justice. Bias in algorithms can perpetuate systemic discrimination.",
              "AIethics", "tech_news_2024", 2),
    BaseChunk("Climate action movements are calling for immediate policy changes. Young activists argue that current measures are insufficient to meet Paris Agreement targets.",
              "ClimateAction", "climate_reports_2024", 5),
    BaseChunk("The debate over tech regulation intensifies as lawmakers struggle to keep pace with AI development. Industry leaders warn of innovation stifling while consumer groups demand protection.",
              "TechDebate", "policy_analysis_2024", 1),
    BaseChunk("Cryptocurrency adoption faces regulatory headwinds globally. While some countries embrace digital currencies, others implement strict restrictions citing financial stability concerns.",
              "CryptoFuture", "financial_news_2024", 8),
    BaseChunk("Healthcare technology promises personalized medicine but raises privacy concerns. Patient data security and consent mechanisms remain contentious issues.",
              "HealthTech", "medical_journals_2024", 3)
  ]

  /** A database entry: a copy of a base chunk with its id and two drawn values. */
  datatype Chunk = Chunk(
    text: string,
    topic: string,
    source: string,
    hoursAgo: int,
    chunkId: string,
    relevanceScore: real,
    semanticCluster: int)

  /** The draws for one variation: `uniform(0.6, 0.95)` and `randint(1, 5)`. */
  datatype VariantDraw = VariantDraw(relevanceScore: real, semanticCluster: int)

  predicate ValidVariantDraw(d: VariantDraw)
  {
    0.6 <= d.relevanceScore <= 0.95 && 1 <= d.semanticCluster <= 5
  }

  const VariantsPerChunk := 3

  /** `str(i)` for a single decimal digit. */
  function Digit(i: int): string
    requires 0 <= i < 10
  {
    [('0' as int + i) as char]
  }

  /** `f"{topic}_{i}"`. */
  function ChunkId(topic: string, i: int): string
    requires 0 <= i < 10
  {
    topic + "_" + Digit(i)
  }

  function Variant(base: BaseChunk, i: int, d: VariantDraw): Chunk
    requires 0 <= i < 10
  {
    Chunk(base.text, base.topic, base.source, base.hoursAgo, ChunkId(base.topic, i), d.relevanceScore, d.semanticCluster)
  }

  /** `_initialize_chunk_db`: three variations of each base chunk, in order;
      entry `k` is variation `k % 3` of base chunk `k / 3`. */
  method InitializeChunkDb(draws: seq<VariantDraw>) returns (db: seq<Chunk>)
    requires |draws| == VariantsPerChunk * |SampleChunks|
    requires forall k :: 0 <= k < |draws| ==> ValidVariantDraw(draws[k])
    ensures |db| == 15
    ensures forall k :: 0 <= k < |db| ==> db[k] == Variant(SampleChunks[k / 3], k % 3, draws[k])
    ensures forall k :: 0 <= k < |db| ==>
              && db[k].chunkId == SampleChunks[k / 3].topic + "_" + Digit(k % 3)
              && db[k].text == SampleChunks[k / 3].text
              && 0.6 <= db[k].relevanceScore <= 0.95
  {
    db := [];
    for j := 0 to |SampleChunks|
      invariant |db| == 3 * j
      invariant forall k :: 0 <= k < |db| ==> db[k] == Variant(SampleChunks[k / 3], k % 3, draws[k])
    {
      for i := 0 to VariantsPerChunk
        invariant |db| == 3 * j + i
        invariant forall k :: 0 <= k < |db| ==> db[k] == Variant(SampleChunks[k / 3], k % 3, draws[k])
      {
        var base := SampleChunks[j];
        var d := draws[3 * j + i];
        db := db + [Chunk(base.text, base.topic, base.source, base.hoursAgo, ChunkId(base.topic, i),
                          d.relevanceScore, d.semanticCluster)];
      }
    }
  }

  // ---------------------------------------------------------------------
  // _retrieve_chunks

  datatype RetrievedChunk = RetrievedChunk(
    text: string,
    source: string,
    relevance: real,
    chunkId: string,
    semanticCluster: int,
    hoursAgo: int)

  function Retrieve(c: Chunk, relevance: real): RetrievedChunk
  {
    RetrievedChunk(c.text, c.source, relevance, c.chunkId, c.semanticCluster, c.hoursAgo)
  }

  /** The records the loop builds, one per database entry of the prefix. */
  function Retrievals(entries: seq<Chunk>, relevance: seq<real>): seq<RetrievedChunk>
    requires |relevance| == |entries|
  {
    seq(|entries|, i requires 0 <= i < |entries| => Retrieve(entries[i], relevance[i]))
  }

  function ByRelevance(c: RetrievedChunk): real { c.relevance }

  /** `_retrieve_chunks(query, top_k)`: the query is never read; the first
      `top_k` entries get a drawn relevance and are sorted by it. */
  method RetrieveChunks(query: string, db: seq<Chunk>, topK: int, relevance: seq<real>)
    returns (chunks: seq<RetrievedChunk>)
    requires |relevance| == |PrefixSlice(db, topK)|
    requires forall i :: 0 <= i < |relevance| ==> 0.65 <= relevance[i] <= 0.92
    ensures chunks == SortDesc(Retrievals(PrefixSlice(db, topK), relevance), ByRelevance)
    ensures 0 <= topK ==> |chunks| == Min(topK, |db|)
    ensures SortedDesc(chunks, ByRelevance)
    ensures forall c :: c in chunks ==>
              exists i :: 0 <= i < |relevance| && i < |db| && c == Retrieve(db[i], relevance[i])
    ensures forall c :: c in chunks ==> 0.65 <= c.relevance <= 0.92
  {
    var entries := PrefixSlice(db, topK);
    chunks := [];
    for i := 0 to |entries|
      invariant |chunks| == i
      invariant forall j :: 0 <= j < i ==> chunks[j] == Retrieve(entries[j], relevance[j])
    {
      var c := entries[i];
      chunks := chunks + [RetrievedChunk(c.text, c.source, relevance[i], c.chunkId, c.semanticCluster, c.hoursAgo)];
    }
    assert chunks == Retrievals(entries, relevance);
    chunks := SortDesc(chunks, ByRelevance);
    SortDescMembers(Retrievals(entries, relevance), ByRelevance);
    forall c | c in chunks
      ensures exists i :: 0 <= i < |relevance| && i < |db| && c == Retrieve(db[i], relevance[i])
    {
      var i :| 0 <= i < |entries| && Retrievals(entries, relevance)[i] == c;
      assert entries[i] == db[i];
    }
  }

  // ---------------------------------------------------------------------
  // _get_cultural_context

  /** The cultural contexts, in the dictionary's insertion order. */
  const CulturalContexts: seq<(string, string)> := [
    ("AIethics", "Originated in academic AI research circles, gained mainstream attention post-ChatGPT"),
    ("ClimateAction", "Rooted in environmental activism, amplified by youth movements and policy debates"),
    ("TechDebate", "Silicon Valley discourse around innovation vs regulation, spreading to mainstream media"),
    ("CryptoFuture", "Emerging from financial tech communities, polarized by market volatility"),
    ("HealthTech", "Medical professional discussions expanding into consumer health conversations")
  ]

  const DefaultContext := "Emerging from social media discussions, reflecting broader societal tensions and technological change."

  /** `topic.lower() in query.lower()`. */
  predicate Mentions(query: string, topic: string)
  {
    Contains(Lower(query), Lower(topic))
  }

  /** The context of the first entry the query mentions, else the default. */
  function ContextLookup(contexts: seq<(string, string)>, query: string): string
  {
    if contexts == [] then DefaultContext
    else if Mentions(query, contexts[0].0) then contexts[0].1
    else ContextLookup(contexts[1..], query)
  }

  /** The lookup is a first-match search: it returns the context of the
      earliest entry the query mentions, or the default when there is none. */
  lemma {:induction false} ContextLookupFirstMatch(contexts: seq<(string, string)>, query: string)
    ensures (exists i :: 0 <= i < |contexts| && Mentions(query, contexts[i].0)
                && (forall j :: 0 <= j < i ==> !Mentions(query, contexts[j].0))
                && ContextLookup(contexts, query) == contexts[i].1)
         || ((forall i :: 0 <= i < |contexts| ==> !Mentions(query, contexts[i].0))
                && ContextLookup(contexts, query) == DefaultContext)
  {
    if contexts != [] && !Mentions(query, contexts[0].0) {
      var rest := contexts[1..];
      ContextLookupFirstMatch(rest, query);
      if exists i :: 0 <= i < |rest| && Mentions(query, rest[i].0)
                && (forall j :: 0 <= j < i ==> !Mentions(query, rest[j].0))
                && ContextLookup(rest, query) == rest[i].1 {
        var i :| 0 <= i < |rest| && Mentions(query, rest[i].0)
                && (forall j :: 0 <= j < i ==> !Mentions(query, rest[j].0))
                && ContextLookup(rest, query) == rest[i].1;
        assert forall j :: 0 <= j < i + 1 ==> !Mentions(query, contexts[j].0) by {
          forall j | 0 <= j < i + 1 ensures !Mentions(query, contexts[j].0) {
            if j > 0 { assert contexts[j] == rest[j - 1]; }
          }
        }
        assert contexts[i + 1] == rest[i];
      } else {
        forall i | 0 <= i < |contexts| ensures !Mentions(query, contexts[i].0) {
          if i > 0 { assert contexts[i] == rest[i - 1]; }
        }
      }
    }
  }

  /** The match ignores case: an all-capitals query finds the entry whose
      name differs from it only in case. */
  lemma UpperCaseQueryFindsTopic()
    ensures ContextLookup(CulturalContexts, "AIETHICS") == CulturalContexts[0].1
  {
    assert Lower("AIETHICS") == "aiethics";
    assert Lower("AIethics") == "aiethics";
    assert "aiethics" <= "aiethics"[0..];
  }

  /** The lookup depends on the query only through its lower-cased form:
      two queries that differ only in case find the same context. */
  lemma {:induction false} LookupIgnoresCase(contexts: seq<(string, string)>, q1: string, q2: string)
    requires Lower(q1) == Lower(q2)
    ensures ContextLookup(contexts, q1) == ContextLookup(contexts, q2)
  {
    if contexts != [] {
      assert Mentions(q1, contexts[0].0) == Mentions(q2, contexts[0].0);
      LookupIgnoresCase(contexts[1..], q1, q2);
    }
  }

  /** Two queries that differ only in the case of their letters find the
      same context. */
  lemma LookupIgnoresLetterCase(q1: string, q2: string)
    requires SameIgnoringCase(q1, q2)
    ensures ContextLookup(CulturalContexts, q1) == ContextLookup(CulturalContexts, q2)
  {
    LowerSameIgnoringCase(q1, q2);
    LookupIgnoresCase(CulturalContexts, q1, q2);
  }

  /** `_get_cultural_context`: the search loop with its early return. */
  method GetCulturalContext(query: string) returns (context: string)
    ensures context == ContextLookup(CulturalContexts, query)
  {
    var lowered := Lower(query);
    for i := 0 to |CulturalContexts|
      invariant ContextLookup(CulturalContexts, query) == ContextLookup(CulturalContexts[i..], query)
    {
      var (topic, text) := CulturalContexts[i];
      if Contains(lowered, Lower(topic)) {
        return text;
      }
      assert CulturalContexts[i..][1..] == CulturalContexts[i + 1..];
    }
    return DefaultContext;
  }

  // ---------------------------------------------------------------------
  // _generate_meme_timeline and analyze_trend

  predicate ValidTimelineDraw(d: MemeDayDraw)
  {
    5 <= d.variantCount <= 30 && d.platform in MemePlatforms
  }

  /** `_generate_meme_timeline`: the seven days of the past week, oldest
      first. */
  method GenerateMemeTimeline(days: seq<MemeDayDraw>) returns (timeline: seq<MemeDay>)
    requires |days| == 7
    requires forall i :: 0 <= i < 7 ==> ValidTimelineDraw(days[i])
    ensures |timeline| == 7
    ensures forall i :: 0 <= i < 7 ==>
              && timeline[i] == MemeDayFrom(7 - i, days[i])
              && 0 <= timeline[i].popularity
              && 5 <= timeline[i].variantCount <= 30
              && timeline[i].platformDominance in MemePlatforms
  {
    timeline := [];
    for i := 0 to 7
      invariant |timeline| == i
      invariant forall j :: 0 <= j < i ==> timeline[j] == MemeDayFrom(7 - j, days[j])
    {
      var popularity := Max(0, PyInt(days[i].rawPopularity));
      timeline := timeline + [MemeDay(7 - i, popularity, days[i].variantCount, days[i].platform)];
    }
  }

  datatype TrendAnalysis = TrendAnalysis(
    query: string,
    chunks: seq<RetrievedChunk>,
    culturalOrigin: string,
    toxicityAlert: bool,
    memeEvolution: Option<seq<MemeDay>>,
    processingTime: real,
    confidenceScore: real,
    sourceDiversity: real)

  /** Everything `analyze_trend` draws at random. */
  datatype AnalysisDraws = AnalysisDraws(
    relevance: seq<real>,
    toxicityRoll: real,
    memeRoll: real,
    memeDays: seq<MemeDayDraw>,
    processingTime: real,
    confidenceScore: real,
    sourceDiversity: real)

  predicate ValidAnalysisDraws(db: seq<Chunk>, d: AnalysisDraws)
  {
    && |d.relevance| == Min(5, |db|)
    && (forall i :: 0 <= i < |d.relevance| ==> 0.65 <= d.relevance[i] <= 0.92)
    && 0.0 <= d.toxicityRoll < 1.0
    && 0.0 <= d.memeRoll < 1.0
    && |d.memeDays| == 7
    && (forall i :: 0 <= i < 7 ==> ValidTimelineDraw(d.memeDays[i]))
    && 0.6 <= d.processingTime <= 1.2
    && 0.8 <= d.confidenceScore <= 0.95
    && 0.7 <= d.sourceDiversity <= 0.9
  }

  /** `analyze_trend(query)` with the default `top_k` of 5. A timeline is
      produced when the lower-cased query mentions "meme" or the roll
      exceeds 0.6. */
  method AnalyzeTrend(query: string, db: seq<Chunk>, d: AnalysisDraws) returns (a: TrendAnalysis)
    requires ValidAnalysisDraws(db, d)
    ensures a.query == query
    ensures a.chunks == SortDesc(Retrievals(PrefixSlice(db, 5), d.relevance), ByRelevance)
    ensures a.culturalOrigin == ContextLookup(CulturalContexts, query)
    ensures a.toxicityAlert <==> d.toxicityRoll > 0.7
    ensures a.memeEvolution.Some? <==> (Contains(Lower(query), "meme") || d.memeRoll > 0.6)
    ensures Contains(Lower(query), "meme") ==> a.memeEvolution.Some? && |a.memeEvolution.value| == 7
    ensures a.memeEvolution.Some? ==> |a.memeEvolution.value| == 7
    ensures a.memeEvolution.Some? ==>
              forall i :: 0 <= i < 7 ==> a.memeEvolution.value[i] == MemeDayFrom(7 - i, d.memeDays[i])
    ensures a.processingTime == d.processingTime && 0.6 <= a.processingTime <= 1.2
    ensures a.confidenceScore == d.confidenceScore && 0.8 <= a.confidenceScore <= 0.95
    ensures a.sourceDiversity == d.sourceDiversity && 0.7 <= a.sourceDiversity <= 0.9
  {
    var chunks := RetrieveChunks(query, db, 5, d.relevance);
    var origin := GetCulturalContext(query);
    var toxicity := d.toxicityRoll > 0.7;
    var meme: Option<seq<MemeDay>> := None;
    if Contains(Lower(query), "meme") || d.memeRoll > 0.6 {
      var timeline := GenerateMemeTimeline(d.memeDays);
      meme := Some(timeline);
    }
    a := TrendAnalysis(query, chunks, origin, toxicity, meme, d.processingTime, d.confidenceScore, d.sourceDiversity);
  }
}

=== FILE: text.dfy ===
/** The string operations the core uses: Python's `str.lower()` and the
    substring test `sub in s`. Lower-casing covers ASCII letters only. */
module Text {

  predicate IsUpper(c: char) { 'A' <= c <= 'Z' }

  function LowerChar(c: char): char
  {
    if IsUpper(c) then (c as int + 32) as char else c
  }

  /** `s.lower()` on ASCII letters: each capital becomes the small letter at
      the same place in the alphabet, and every other character is kept. */
  function Lower(s: string): (r: string)
    ensures |r| == |s|
    ensures forall i :: 0 <= i < |s| ==> !IsUpper(r[i])
    ensures forall i :: 0 <= i < |s| && !IsUpper(s[i]) ==> r[i] == s[i]
    ensures forall i :: 0 <= i < |s| && IsUpper(s[i]) ==>
              'a' <= r[i] <= 'z' && r[i] as int - 'a' as int == s[i] as int - 'A' as int
  {
    seq(|s|, i requires 0 <= i < |s| => LowerChar(s[i]))
  }

  /** Two characters are the same letter up to case, or the same character. */
  predicate SameCharIgnoringCase(a: char, b: char)
  {
    || a == b
    || (IsUpper(a) && b as int - 'a' as int == a as int - 'A' as int)
    || (IsUpper(b) && a as int - 'a' as int == b as int - 'A' as int)
  }

  /** Two strings that differ at most in the case of ASCII letters. */
  predicate SameIgnoringCase(s: string, t: string)
  {
    |s| == |t| && forall i :: 0 <= i < |s| ==> SameCharIgnoringCase(s[i], t[i])
  }

  /** Strings that differ only in the case of ASCII letters lower-case to
      the same string. */
  lemma LowerSameIgnoringCase(s: string, t: string)
    requires SameIgnoringCase(s, t)
    ensures Lower(s) == Lower(t)
  {
    var ls, lt := Lower(s), Lower(t);
    forall i | 0 <= i < |s| ensures ls[i] == lt[i] {
      assert SameCharIgnoringCase(s[i], t[i]);
    }
  }

  /** Python's `sub in s`. */
  predicate Contains(s: string, sub: string)
  {
    exists k | 0 <= k <= |s| :: sub <= s[k..]
  }

  /** A string built as `prefix + sub + suffix` contains `sub`. */
  lemma {:induction false} ContainsInfix(prefix: string, sub: string, suffix: string)
    ensures Contains(prefix + sub + suffix, sub)
  {
    var s := prefix + sub + suffix;
    assert s[|prefix|..] == sub + suffix;
  }
}

=== FILE: trend_context.dfy ===
/** The trend store shared by the dashboard components: the stored trends,
    the platform filter applied to them, the selected trend, and the
    periodic step that perturbs volume, controversy and growth. The timer
    that fires the step is not modelled; each firing is a call of `Tick`
    with the random draws it consumes. */
module TrendContext {
  import opened Common
  import opened Lists

  datatype Platform = Twitter | Reddit | TikTok

  /** The platform selector: every platform, or one of them. */
  datatype PlatformChoice = All | Only(platform: Platform)

  datatype Trend = Trend(
    id: string,
    hashtag: string,
    volume: int,
    sentiment: real,
    controversy: real,
    platform: Platform,
    region: string,
    growth: real)

  const MockTrends: seq<Trend> := [
    Trend("1", "#AIethics", 125000, 0.3, 85.0, Twitter, "USA", 12.5),
    Trend("2", "#ClimateAction", 89000, 0.7, 72.0, Twitter, "Europe", 8.2),
    Trend("3", "#CryptoRegulation", 156000, -0.2, 91.0, Reddit, "Global", -5.1),
    Trend("4", "#TechLayoffs", 234000, -0.5, 68.0, Twitter, "USA", 15.7),
    Trend("5", "#ElonMusk", 445000, 0.1, 88.0, Twitter, "Global", -2.3),
    Trend("6", "#UkraineWar", 312000, -0.3, 94.0, Reddit, "Europe", 3.4),
    Trend("7", "#DanceChallenge", 678000, 0.8, 15.0, TikTok, "Global", 25.6),
    Trend("8", "#StreamingWars", 187000, 0.2, 55.0, Reddit, "USA", 7.8)
  ]

  // ---------------------------------------------------------------------
  // The platform filter

  function OnPlatform(p: Platform): Trend -> bool
  {
    (t: Trend) => t.platform == p
  }

  /** The trends the provider exposes for a platform choice. */
  function Filtered(trends: seq<Trend>, choice: PlatformChoice): seq<Trend>
  {
    match choice
    case All => trends
    case Only(p) => Filter(trends, OnPlatform(p))
  }

  /** With every platform chosen the stored trends are exposed unchanged;
      otherwise exactly the stored trends of the chosen platform are
      exposed, in their stored order. */
  lemma FilteredExactly(trends: seq<Trend>, choice: PlatformChoice)
    ensures choice.All? ==> Filtered(trends, choice) == trends
    ensures choice.Only? ==>
              && (forall i :: 0 <= i < |Filtered(trends, choice)| ==>
                    Filtered(trends, choice)[i] in trends && Filtered(trends, choice)[i].platform == choice.platform)
              && (forall i :: 0 <= i < |trends| && trends[i].platform == choice.platform ==>
                    trends[i] in Filtered(trends, choice))
    ensures IsSubsequence(Filtered(trends, choice), trends)
  {
    match choice {
      case All =>
        FilterKeepsAll(trends, (t: Trend) => true);
        FilterIsSubsequence(trends, (t: Trend) => true);
      case Only(p) =>
        FilterMembers(trends, OnPlatform(p));
        FilterIsSubsequence(trends, OnPlatform(p));
    }
  }

  /** Filtering the exposed trends again by the same choice changes nothing. */
  lemma FilteredIdempotent(trends: seq<Trend>, choice: PlatformChoice)
    ensures Filtered(Filtered(trends, choice), choice) == Filtered(trends, choice)
  {
    if choice.Only? {
      FilterIdempotent(trends, OnPlatform(choice.platform));
    }
  }

  /** Of the mock trends, only `#DanceChallenge` is a TikTok trend. */
  lemma MockTikTokTrends()
    ensures Filtered(MockTrends, Only(TikTok)) == [MockTrends[6]]
  {
    var p := OnPlatform(TikTok);
    assert MockTrends == MockTrends[..6] + [MockTrends[6]] + [MockTrends[7]];
    FilterAppend(MockTrends[..6] + [MockTrends[6]], [MockTrends[7]], p);
    FilterAppend(MockTrends[..6], [MockTrends[6]], p);
    assert forall i :: 0 <= i < 6 ==> !p(MockTrends[..6][i]);
    FilterNone(MockTrends[..6], p);
    assert Filter([MockTrends[7]], p) == [];
    assert Filter([MockTrends[6]], p) == [MockTrends[6]];
  }

  // ---------------------------------------------------------------------
  // The periodic update

  /** The three `Math.random()` results one trend's update consumes, in
      the order the step draws them. */
  datatype TickDraw = TickDraw(volumeRoll: real, controversyRoll: real, growthRoll: real)

  predicate ValidTickDraw(d: TickDraw)
  {
    && 0.0 <= d.volumeRoll < 1.0
    && 0.0 <= d.controversyRoll < 1.0
    && 0.0 <= d.growthRoll < 1.0
  }

  /** `Math.max(0, Math.min(100, x))`. */
  function ClampPercent(x: real): (r: real)
    ensures 0.0 <= r <= 100.0
    ensures 0.0 <= x <= 100.0 ==> r == x
  {
    if x < 0.0 then 0.0 else if x > 100.0 then 100.0 else x
  }

  /** One trend after one step. */
  function Updated(t: Trend, d: TickDraw): (u: Trend)
    requires ValidTickDraw(d)
    ensures u.id == t.id && u.hashtag == t.hashtag && u.sentiment == t.sentiment
    ensures u.platform == t.platform && u.region == t.region
    ensures -500 <= u.volume - t.volume <= 499
    ensures 0.0 <= u.controversy <= 100.0
    ensures 0.0 <= t.controversy <= 100.0 ==> -2.5 <= u.controversy - t.controversy <= 2.5
    ensures -1.0 <= u.growth - t.growth < 1.0
  {
    t.(volume := t.volume + (d.volumeRoll * 1000.0).Floor - 500,
       controversy := ClampPercent(t.controversy + (d.controversyRoll - 0.5) * 5.0),
       growth := t.growth + (d.growthRoll - 0.5) * 2.0)
  }

  /** The step's `map` over the stored trends. It keeps the list's length
      and order and every field but volume, controversy and growth; the
      volume moves by an integer in [-500, 499], controversy ends up in
      [0, 100] and moves by at most 2.5, and growth by less than 1. */
  function UpdateAll(trends: seq<Trend>, draws: seq<TickDraw>): (r: seq<Trend>)
    requires |draws| == |trends|
    requires forall i :: 0 <= i < |draws| ==> ValidTickDraw(draws[i])
    ensures |r| == |trends|
    ensures forall i :: 0 <= i < |r| ==>
              && r[i].id == trends[i].id
              && r[i].hashtag == trends[i].hashtag
              && r[i].sentiment == trends[i].sentiment
              && r[i].platform == trends[i].platform
              && r[i].region == trends[i].region
              && -500 <= r[i].volume - trends[i].volume <= 499
              && 0.0 <= r[i].controversy <= 100.0
              && (0.0 <= trends[i].controversy <= 100.0 ==>
                    -2.5 <= r[i].controversy - trends[i].controversy <= 2.5)
              && -1.0 <= r[i].growth - trends[i].growth < 1.0
  {
    seq(|trends|, i requires 0 <= i < |trends| => Updated(trends[i], draws[i]))
  }

  /** The ids, in order. */
  function Ids(trends: seq<Trend>): seq<string>
  {
    seq(|trends|, i requires 0 <= i < |trends| => trends[i].id)
  }

  /** A step never changes which trends a platform choice exposes, nor
      their order: the update keeps every platform. */
  lemma {:induction false} UpdateKeepsFilteredIds(trends: seq<Trend>, draws: seq<TickDraw>, choice: PlatformChoice)
    requires |draws| == |trends|
    requires forall i :: 0 <= i < |draws| ==> ValidTickDraw(draws[i])
    ensures Ids(Filtered(UpdateAll(trends, draws), choice)) == Ids(Filtered(trends, choice))
  {
    if trends != [] && choice.Only? {
      var p := OnPlatform(choice.platform);
      var u := UpdateAll(trends, draws);
      assert u[1..] == UpdateAll(trends[1..], draws[1..]);
      UpdateKeepsFilteredIds(trends[1..], draws[1..], choice);
      assert Filter(u, p) == (if p(u[0]) then [u[0]] else []) + Filter(u[1..], p);
      assert Filter(trends, p) == (if p(trends[0]) then [trends[0]] else []) + Filter(trends[1..], p);
      IdsAppend(if p(u[0]) then [u[0]] else [], Filter(u[1..], p));
      IdsAppend(if p(trends[0]) then [trends[0]] else [], Filter(trends[1..], p));
    }
  }

  lemma IdsAppend(a: seq<Trend>, b: seq<Trend>)
    ensures Ids(a + b) == Ids(a) + Ids(b)
  {
  }

  // ---------------------------------------------------------------------
  // The provider's state

  class TrendProvider {
    var trends: seq<Trend>
    var selectedTrend: Option<Trend>
    var platform: PlatformChoice

    /** The initial state: every mock trend, the first one selected, every
        platform shown. */
    constructor ()
      ensures trends == MockTrends
      ensures selectedTrend == Some(MockTrends[0])
      ensures platform == All
    {
      trends := MockTrends;
      selectedTrend := Some(MockTrends[0]);
      platform := All;
    }

    /** The `trends` value the context hands to its consumers. */
    function Exposed(): seq<Trend>
      reads this
    {
      Filtered(trends, platform)
    }

    method SetPlatform(p: PlatformChoice)
      modifies this
      ensures platform == p
      ensures trends == old(trends) && selectedTrend == old(selectedTrend)
    {
      platform := p;
    }

    method SetSelectedTrend(t: Option<Trend>)
      modifies this
      ensures selectedTrend == t
      ensures trends == old(trends) && platform == old(platform)
    {
      selectedTrend := t;
    }

    /** One firing of the update interval. The selected trend is a
        separate copy and keeps its old values. */
    method Tick(draws: seq<TickDraw>)
      requires |draws| == |trends|
      requires forall i :: 0 <= i < |draws| ==> ValidTickDraw(draws[i])
      modifies this
      ensures trends == UpdateAll(old(trends), draws)
      ensures selectedTrend == old(selectedTrend) && platform == old(platform)
      ensures Ids(Exposed()) == old(Ids(Exposed()))
    {
      UpdateKeepsFilteredIds(trends, draws, platform);
      trends := UpdateAll(trends, draws);
    }
  }
}
